=== FILE: README.md ===
# MP3 frame counter — a verified Dafny model

This project models the two frame counters of an MP3 upload service. Both take
an upload as an ordered sequence of byte chunks.

- `countMp3Frames` (`src/core/mp3.ts`) is the streaming MPEG-1 Layer III
  counter. It carries three pieces of state from chunk to chunk: the unread
  leftover bytes, a one-shot "ID3 decided" flag, and the running count. For
  each chunk it appends the chunk to the leftover. Once per stream, it skips a
  leading ID3v2 tag, whose body size is a 28-bit synchsafe integer (ID3v2.4
  structure document, section 3.1). It then scans for the 11-bit frame sync
  and decodes the bitrate, sampling-frequency and padding fields of the
  ISO/IEC 11172-3 header through fixed tables. It steps one byte past an
  invalid candidate and stops at a frame not yet fully buffered. It counts
  each complete frame unless the frame is a Xing, Info or VBRI summary.
- `FileUploadService.countMp3Frames` (`src/file-upload/file-upload.service.ts`)
  is the naive counter that the application module wires in. It uses the same
  accumulate-and-scan loop, but every sync word counts as one frame and moves
  the offset by 4.

Bytes are `bv8`, a chunk is `seq<bv8>`, and a stream is a sequence of chunks.
Each per-chunk step is a pure function on a state record. A stream is a left
fold of that step (`Mp3.Run`, `FileUploadService.NaiveRun`). Each scan pass is
a recursive function on (buffer, offset, count). The loops as the source
writes them are methods, each proved equal to its functional counterpart:
`Mp3.SkipId3` computes the start and the flag of `Id3Tag.DecideId3`,
`Mp3.ScanPass` computes `Mp3.Scan`, and only the two counters
(`Mp3.CountMp3Frames`, `FileUploadService.CountMp3Frames`) compute a fold.

Modules follow the program's structure:
- `Stream`: bytes, chunk concatenation, suffixes.
- `FrameHeader`: sync, fields, tables, frame size.
- `Id3Tag`: the synchsafe size and the one-shot ID3 decision.
- `VbrTag`: the Xing/Info/VBRI classification.
- `Mp3`: the streaming counter.
- `Mp3Properties`: chunking, monotonicity, the degenerate and single-frame streams.
- `Id3Deferral`: the split-tag finding and the corrected step.
- `FileUploadService`: the naive counter.

Some modelling notes:
- The frame size is `Math.floor((144 * bitrate * 1000) / sampleRate) + padding`
  computed in floating point. Both operands are integers exactly
  representable as doubles, the divisor is at most 48000 and the quotient at
  most 1440. The correctly rounded quotient therefore floors to the integer
  quotient, and the model uses Dafny's integer division.
- The synchsafe size combines four 7-bit fields with `|` after shifts of 21,
  14, 7 and 0. The fields occupy disjoint bits, so the model writes the sum,
  and `Id3Tag.SynchsafeAsShiftOr` proves the 32-bit shift-and-or equal to it.
- The table lookups can never return `undefined`, because the indices are
  masked to 4 and 2 bits. The model keeps only the zero-entry test.
  `FrameHeader.Decode` reads the tables through `BitrateOf` and
  `SampleRateOf`. These are case splits, each proved equal to its table entry
  at every index.
- The model follows the code as written. The pass runs even while the ID3
  decision is still pending. "VBRI" is looked for at frame offset 32, while
  "Xing" and "Info" are looked for at 36.

## Model

| member | source | states |
|---|---|---|
| FrameHeader.IsFrameSync | src/core/mp3.ts:54-56 | definition: the frame sync is a 0xFF byte followed by a byte whose top three bits are set (the same test as src/file-upload/file-upload.service.ts:19) |
| FrameHeader.FieldsAsNumbers | src/core/mp3.ts:58-63 | the bitrate index is the byte's high nibble, the sampling-frequency index its bits 3–2 and the padding its bit 1, read as numbers |
| FrameHeader.HeaderFieldsRoundTrip | src/core/mp3.ts:58-63 | reading the three fields back from a header byte built from them gives those fields |
| FrameHeader.HeaderByteOfFields | src/core/mp3.ts:58-63 | every third header byte is rebuilt from its three fields plus bit 0, so the fields lose nothing else |
| FrameHeader.Decode | src/core/mp3.ts:48-68 | a header is valid exactly when the bitrate index is 1..14 and the sampling index 0..2 |
| FrameHeader.DecodeRanges | src/core/mp3.ts:48-52 | a valid header has a sample rate of 32000, 44100 or 48000 Hz, a bitrate of 32..320 kbit/s and a padding of 0 or 1 |
| FrameHeader.FrameSizeBounds | src/core/mp3.ts:157-159 | every valid header gives a frame size between 96 and 1441 bytes |
| FrameHeader.FrameSizeOf | src/core/mp3.ts:157-159 | the size announced by a valid third header byte lies in [96, 1441] |
| Id3Tag.Low7 | src/core/mp3.ts:93-97 | masking with 0x7F keeps the byte's value modulo 128 |
| Id3Tag.SynchsafeValue | src/core/mp3.ts:93-97 | the tag body size read from bytes 6–9 is below 2^28 |
| Id3Tag.SynchsafeAsShiftOr | src/core/mp3.ts:93-97 | the four 7-bit fields shifted by 21, 14, 7 and 0 in a 32-bit integer and joined with bitwise or give the size the model sums |
| Id3Tag.SynchsafeDigits | src/core/mp3.ts:93-97 | four bytes give the size n exactly when their low 7 bits are the base-128 digits of n, most significant first |
| Id3Tag.SynchsafeIgnoresTopBits | src/core/mp3.ts:93-97 | the top bit of each size byte is ignored, not rejected: setting or clearing it leaves the size unchanged |
| Id3Tag.IsId3Header | src/core/mp3.ts:88-91 | definition: bytes 0 to 2 spell ASCII "ID3" |
| Id3Tag.DecideId3 | src/core/mp3.ts:109-123 | the decision stays pending exactly when fewer than 10 bytes are held or an "ID3" tag is not fully held; it is taken at offset 0 exactly when 10 or more bytes do not start with "ID3"; it skips the whole tag (10 + size) exactly when the tag is fully held |
| Id3Tag.DecisionSurvivesMoreBytes | src/core/mp3.ts:109-123 | a decision taken on some bytes is the decision on any longer buffer starting with them |
| VbrTag.TagAt | src/core/mp3.ts:70-86 | definition: the four bytes at an offset spell a given tag, the comparison each of the Xing, Info and VBRI readers makes |
| VbrTag.IsMetadataFrame | src/core/mp3.ts:164-188 | definition: the frame is a VBR summary when "Xing" or "Info" sits at offset 36 with 40 bytes held, or "VBRI" at offset 32 with 36 bytes held |
| VbrTag.ClassificationOfCompleteFrame | src/core/mp3.ts:164-188 | a fully held frame is a VBR summary exactly when its bytes 36–39 spell "Xing" or "Info" or its bytes 32–35 spell "VBRI" |
| VbrTag.ClassificationIgnoresLaterBytes | src/core/mp3.ts:164-188 | once 40 bytes of a frame are held, later bytes do not change its classification |
| VbrTag.TagsAreDistinctAscii | src/core/mp3.ts:70-86 | the three tags are the ASCII spellings "Xing", "Info", "VBRI" and differ pairwise |
| Mp3.Examine | src/core/mp3.ts:157-162 | a complete frame found at an offset spans at least 96 bytes and lies inside the buffer |
| Mp3.ExamineSpec | src/core/mp3.ts:131-193 | a candidate is a one-byte step exactly when the sync fails or an index is invalid; it is a complete frame exactly when the announced size fits in the buffer, and then it advances by that size and counts exactly when no VBR tag is present |
| Mp3.Scan | src/core/mp3.ts:131-198 | a pass ends inside the buffer, never lowers the count, and each counted frame consumed at least 96 bytes |
| Mp3.ScanResync | src/core/mp3.ts:133-155 | at an invalid candidate the pass moves on by one byte |
| Mp3.ScanOverFrame | src/core/mp3.ts:162-193 | at a complete frame the pass moves past the whole frame, counting it unless it is a VBR summary |
| Mp3.ScanStops | src/core/mp3.ts:131-197 | at an offset with fewer than 4 bytes left or an incomplete frame the pass ends with its count unchanged |
| Mp3.ScanEndsStopped | src/core/mp3.ts:131-198 | every pass ends at an offset where fewer than 4 bytes remain or the frame there is not fully buffered |
| Mp3.Step | src/core/mp3.ts:101-201 | after a chunk the decision flag is set exactly when it was set or the buffer decides it; the leftover is a suffix of the previous leftover followed by the chunk; the count never decreases, and each new frame consumed at least 96 bytes |
| Mp3.TailOfPassIsSettled | src/core/mp3.ts:131-201 | the tail a pass leaves as the leftover is one where a pass from offset 0 could not advance |
| Mp3.StepSettles | src/core/mp3.ts:101-201 | no pass can advance in the leftover a step keeps |
| Mp3.Run | src/core/mp3.ts:99-204 | definition: the state after a stream is `Mp3.Step` folded over its chunks from the first to the last, starting from an empty leftover, no decision and count 0 |
| Mp3.RunKeepsTail | src/core/mp3.ts:99-204 | after any chunks the leftover is the unconsumed tail of all received bytes; counted frames account for 96 bytes each of the rest |
| Mp3.SkipId3 | src/core/mp3.ts:109-123 | the ID3 gate as written computes the pass start and the flag of `Id3Tag.DecideId3` |
| Mp3.DecodeFromTables | src/core/mp3.ts:139-159 | the two table entries the loop reads are both non-zero exactly when the header is valid, and then the frame size is 144000 times the bitrate over the sample rate, floored, plus the padding |
| Mp3.ProbesDecideMetadata | src/core/mp3.ts:164-188 | the three tag probes of the loop, taken in order, find a tag exactly when the frame is a VBR summary |
| Mp3.ScanPass | src/core/mp3.ts:131-198 | the inner loop as written ends at the offset and count of `Mp3.Scan` |
| Mp3.CountMp3Frames | src/core/mp3.ts:40-205 | the counter as written returns the count of the fold over its chunks |
| Mp3Properties.ExamineExtend | src/core/mp3.ts:162-197 | any candidate other than an incomplete frame is unchanged when more bytes arrive |
| Mp3Properties.ScanExtend | src/core/mp3.ts:131-201 | a pass over a longer buffer is the pass over the shorter one continued from where it stopped |
| Mp3Properties.ScanShift | src/core/mp3.ts:131-201 | dropping the first k bytes shifts a pass by k and leaves its count unchanged |
| Mp3Properties.ScanCountIsAdditive | src/core/mp3.ts:190-193 | the frames a pass adds do not depend on the count it starts from |
| Mp3Properties.SameTailSamePass | src/core/mp3.ts:131-198 | buffers agreeing from an offset on give passes from it with the same end and the same added count |
| Mp3Properties.ExamineSameHeader | src/core/mp3.ts:157-162 | two buffers of one length with the same three header bytes hold, at that offset, complete frames of the same size |
| Mp3Properties.SameHeaderSameTail | src/core/mp3.ts:157-193 | buffers agreeing on a complete frame's header and on everything after it give passes ending at the same offset, with counts differing by at most one |
| Mp3Properties.TagBytesDecideOnlyCounting | src/core/mp3.ts:162-193 | rewriting a complete frame's bytes 32–39 keeps its size and the pass's end offset, and changes the count by at most one |
| Mp3Properties.StepContinuesPass | src/core/mp3.ts:99-201 | once decided, a step continues the one pass over all bytes so far |
| Mp3Properties.RunIsOnePass | src/core/mp3.ts:99-204 | when the first chunk settles the ID3 question, the state after any chunks is the tail of one pass over their concatenation from the decided start |
| Mp3Properties.ChunkBoundaryInvariance | src/core/mp3.ts:99-204 | when the first chunk settles the ID3 question, any split of the rest gives the state of one chunk |
| Mp3Properties.HeaderPrefixStops | src/core/mp3.ts:131-197 | a pass over fewer than 96 leading bytes of a stream that opens with a frame header consumes nothing and counts nothing |
| Mp3Properties.HeaderRunIsOnePass | src/core/mp3.ts:99-204 | for a stream that opens with a frame header, fewer than 10 bytes received are all held undecided with count 0; from 10 bytes on, the state is the tail of one pass from offset 0 |
| Mp3Properties.HeaderStartChunkBoundaryInvariance | src/core/mp3.ts:99-204 | a stream that opens with a frame header gives the state of one chunk however it is split, inside that header and before the tenth byte included |
| Mp3Properties.RunSnoc | src/core/mp3.ts:99-204 | one more chunk at the end of a stream is one more step |
| Mp3Properties.RunMonotone | src/core/mp3.ts:99-204 | later chunks never lower the count and never reopen the ID3 decision |
| Mp3Properties.StepOpensAtZero | src/core/mp3.ts:109-201 | while the ID3 question stays open after a step, the leftover either leaves it pending or decides it with nothing to skip, never holding a whole tag |
| Mp3Properties.EmptyStepKeepsCountAndLeftover | src/core/mp3.ts:99-201 | on such a settled state an empty chunk keeps the count and the leftover, and settles the ID3 question exactly when the leftover already decides it |
| Mp3Properties.EmptyChunkKeepsCountAndLeftover | src/core/mp3.ts:99-204 | an empty chunk anywhere in any stream keeps the count and the leftover, and sets the decision flag exactly when the flag was set or the leftover decides it |
| Mp3Properties.EmptyStepIsInvisible | src/core/mp3.ts:99-201 | the step on the next chunk gives the same state whether or not an empty chunk came before it |
| Mp3Properties.EmptyChunkIsInvisible | src/core/mp3.ts:99-204 | an empty chunk followed by at least one more chunk leaves the final state of the stream unchanged |
| Mp3Properties.EmptyChunkAfterDecision | src/core/mp3.ts:99-201 | after the decision, an empty chunk leaves the state unchanged |
| Mp3Properties.ScanWithoutSync | src/core/mp3.ts:131-136 | with no sync in the buffer a pass steps byte by byte to 3 bytes before the end and counts nothing |
| Mp3Properties.StepWithoutSync | src/core/mp3.ts:99-201 | a chunk whose buffer holds no sync adds no frame |
| Mp3Properties.NoSyncCountsZero | src/core/mp3.ts:40-205 | a stream with no adjacent sync pair, the empty stream included, counts 0 however it is chunked |
| Mp3Properties.NotAnMp3CountsZero | test/e2e/app.spec.ts:74-85 | the upload "not a valid mp3 file at all" counts 0 however it is chunked |
| Mp3Properties.Header128kSize | src/core/mp3.ts:157-159 | third byte 0x90 is 128 kbit/s at 44100 Hz without padding, a 417-byte frame |
| Mp3Properties.Frame128kExamine | src/core/mp3.ts:157-193 | 417 bytes opening with that header are one complete frame, counted unless tagged |
| Mp3Properties.SingleFrameCount | src/core/mp3.ts:157-193 | such a frame as one chunk counts 1, or 0 when "Xing"/"Info" sits at byte 36 or "VBRI" at byte 32 |
| Id3Deferral.TagOnlyDecisions | src/core/mp3.ts:109-123 | the 110-byte tag-only stream decides with 110 bytes skipped; its first 106 bytes leave the decision pending |
| Id3Deferral.ScanSkipsNonSync | src/core/mp3.ts:133-136 | bytes other than 0xFF are stepped over one at a time |
| Id3Deferral.InnerFrameCounted | src/core/mp3.ts:157-192 | the frame-like bytes inside the tag body form a complete counted 96-byte frame |
| Id3Deferral.FirstPartPass | src/core/mp3.ts:131-198 | the pass over the first 106 bytes of the pending tag counts that frame and consumes all of them |
| Id3Deferral.TagOnlyWhole | src/core/mp3.ts:99-204 | delivered as one chunk, the 110-byte tag-only stream is skipped whole and counts 0 |
| Id3Deferral.TagOnlyFirstStep | src/core/mp3.ts:109-201 | its first 106 bytes leave the decision pending, while the pass counts the frame-like bytes and consumes all of them |
| Id3Deferral.TagOnlySecondStep | src/core/mp3.ts:109-201 | the last 4 zero bytes leave the decision pending; the pass steps over one of them and adds no frame, so the count stays 1 |
| Id3Deferral.SplitTagCounterexample | src/core/mp3.ts:109-136 | the same 110 bytes count 0 as one chunk and 1 when split after byte 106 |
| Id3Deferral.StepDeferred | src/core/mp3.ts:109-123 | corrected step: the flag is set exactly when it was or the buffer decides it; while pending it keeps every byte and counts nothing; the leftover is a suffix of the bytes held, and each new frame consumed at least 96 bytes |
| Id3Deferral.StepDeferredSettles | src/core/mp3.ts:109-201 | once decided, no pass can advance in the leftover the corrected step keeps |
| Id3Deferral.DeferredAgreesOnceDecided | src/core/mp3.ts:109-201 | once the decision is or becomes taken, the corrected step is the source's step |
| Id3Deferral.RunDeferred | src/core/mp3.ts:99-204 | definition: the corrected counter, `Id3Deferral.StepDeferred` folded over the chunks from the same initial state |
| Id3Deferral.RunDeferredIsOnePass | src/core/mp3.ts:99-204 | the corrected state depends only on the concatenated bytes: all of them while pending, else the tail of one pass from the decided start |
| Id3Deferral.DeferredChunkBoundaryInvariance | src/core/mp3.ts:99-204 | the corrected counter gives the same state for every split of a stream, inside an ID3 tag included |
| Id3Deferral.DeferredAgreesWithSource | src/core/mp3.ts:109-123 | when the first chunk settles the ID3 question, the correction changes nothing |
| Id3Deferral.LeadThenTagPass | src/core/mp3.ts:131-198 | one pass over "X" followed by the tag-only bytes counts the frame at offset 11 |
| Id3Deferral.LeadThenTagWhole | src/core/mp3.ts:99-204 | delivered as one chunk, those 111 bytes decide at offset 0 and count 1 |
| Id3Deferral.LeadThenTagFirstStep | src/core/mp3.ts:109-136 | a first chunk of "X", "I", "D", "3" leaves the decision pending and the pass consumes the "X" |
| Id3Deferral.LeadThenTagSecondStep | src/core/mp3.ts:109-136 | the next buffer then opens with "ID3" and its 110 bytes are skipped as a tag, counting 0 |
| Id3Deferral.SkippedAudioCounterexample | src/core/mp3.ts:109-136 | the same 111 bytes count 1 as one chunk and 0 when split after byte 4 |
| Id3Deferral.SkippedAudioCorrected | src/core/mp3.ts:109-123 | the corrected counter counts those 111 bytes split after byte 4 as 1 |
| Id3Deferral.SplitTagCorrected | src/core/mp3.ts:109-123 | the corrected counter counts the split tag-only stream as 0 |
| FileUploadService.NaiveScan | src/file-upload/file-upload.service.ts:16-26 | a naive pass ends inside the buffer with at most 3 bytes unread, never lowers the count, and each counted sync consumed 4 bytes |
| FileUploadService.NaiveCountsIffSync | src/file-upload/file-upload.service.ts:17-26 | a naive pass counts nothing exactly when no sync starts at a reachable position with 4 bytes from it |
| FileUploadService.NaiveScanExtend | src/file-upload/file-upload.service.ts:17-26 | a naive pass over a longer buffer continues the pass over the shorter one |
| FileUploadService.NaiveScanShift | src/file-upload/file-upload.service.ts:17-26 | dropping the first k bytes shifts a naive pass by k |
| FileUploadService.NaiveStep | src/file-upload/file-upload.service.ts:9-29 | after a chunk the leftover is a suffix of the previous leftover followed by the chunk and at most 3 bytes; the count rises by at most a quarter of the bytes consumed |
| FileUploadService.NaiveStepContinuesPass | src/file-upload/file-upload.service.ts:9-29 | a step continues the one naive pass over all bytes so far |
| FileUploadService.NaiveRun | src/file-upload/file-upload.service.ts:9-30 | definition: the naive state after a stream is `FileUploadService.NaiveStep` folded over its chunks from an empty leftover and count 0 |
| FileUploadService.NaiveRunIsOnePass | src/file-upload/file-upload.service.ts:5-33 | the state after any chunks is the tail of one naive pass over their concatenation |
| FileUploadService.NaiveChunkBoundaryInvariance | src/file-upload/file-upload.service.ts:5-33 | every split of a stream gives the naive state of one chunk |
| FileUploadService.NaiveCountsZeroIffNoSync | src/file-upload/file-upload.service.ts:5-33 | the naive count is 0, as for the empty stream, exactly when no sync starts 4 or more bytes before the end |
| FileUploadService.NaiveNotAnMp3CountsZero | test/e2e/app.spec.ts:74-85 | the upload "not a valid mp3 file at all" counts 0 however it is chunked |
| FileUploadService.NaiveRunMonotone | src/file-upload/file-upload.service.ts:6-32 | later chunks never lower the naive count |
| FileUploadService.NaiveCountBound | src/file-upload/file-upload.service.ts:19-22 | the naive count is at most a quarter of the bytes received |
| FileUploadService.CountMp3Frames | src/file-upload/file-upload.service.ts:5-33 | the naive counter as written returns the count of the naive fold |

## Left out

- The HTTP controller (`src/file-upload/file-upload.controller.ts`) is framework glue. It holds the content-type check and the mapping of errors to 415/500.
- The `{frameCount}` wrapper (`src/api/file-upload/file-upload.service.ts`) and the dependency-injection modules hold no counting logic.
- Asynchronous iteration, Promises and stream read failures are not modelled. A stream is a finite sequence of chunks that is already available.
- `Uint8Array` reallocation and copying are not modelled; concatenation is sequence `+`.
- The count is an unbounded `nat`. JavaScript numbers are exact only up to 2^53, which no upload of realistic size reaches.
- Mp3Properties.EmptyChunkAfterDecision: states that an empty chunk is a no-op only once the ID3 question is settled. Before that, the code's empty chunk can set the decision flag: this happens when the leftover is 10 or more bytes not opening with "ID3", e.g. the tail `FF FB 90 00` and six zero bytes kept after a first chunk that opens with a tag header announcing a huge body. `Mp3Properties.EmptyChunkKeepsCountAndLeftover` proves the count and leftover unchanged in every case, and `Mp3Properties.EmptyChunkIsInvisible` proves that no later chunk can tell.
- Mp3Properties.ChunkBoundaryInvariance: proved only when the first chunk already settles the ID3 question; Mp3Properties.HeaderStartChunkBoundaryInvariance also proves it for every stream that opens with a frame header. In general it is false for the code as written: a pass runs while the decision is pending, and when the buffer of a later step then opens with "ID3" the split and unsplit counts differ (see Findings).
- The concurrent-request test and the 6089-frame fixture are not modelled. They exercise the HTTP server and a binary file, not the counting logic.

## Findings

| source | as written | input that shows it | evidently intended | confidence | as-written member | corrected member |
|---|---|---|---|---|---|---|
| src/core/mp3.ts:109-136 | The decision stays pending while fewer than 10 bytes are held or an "ID3" tag is not yet fully buffered, but the pass still runs from offset 0. It scans the bytes held, a tag's included, as audio and consumes them, so the tag is never skipped. | 110 bytes `49 44 33 04 00 00 00 00 00 64` (tag header, body 100), `FF FB 14 00`, 96 zero bytes. As one chunk it counts 0. Split after byte 106 it counts 1. | No pass runs until the decision is taken, so the whole tag is skipped and the count does not depend on chunking | not executed | Id3Deferral.SplitTagCounterexample | Id3Deferral.DeferredChunkBoundaryInvariance |
| src/core/mp3.ts:109-136 | The same pending pass also consumes a leading byte that is not part of any tag. If the rest opens with "ID3", the next buffer skips audio as if it were a tag. | 111 bytes: `58` ("X"), then the 110 bytes above. As one chunk it decides at offset 0 and counts 1. Split after byte 4, the first pass consumes the "X", the second buffer opens with "ID3", and 110 bytes, a countable frame among them, are skipped, counting 0. | No pass runs until the decision is taken, so the decision is made on the bytes as the stream starts and the count does not depend on chunking | not executed | Id3Deferral.SkippedAudioCounterexample | Id3Deferral.DeferredChunkBoundaryInvariance |

=== FILE: file_upload_service.dfy ===
/**
  The naive frame counter of the upload service. It has the same
  accumulate-and-scan skeleton as the streaming counter, but every frame sync
  counts as a frame and moves the offset by 4, anything else moves it by 1,
  and a pass runs while at least 4 bytes remain. No header field is decoded
  and no ID3 tag is skipped.
 */
module FileUploadService {
  import opened Stream
  import opened FrameHeader
  import Mp3Properties

  /**
    One naive pass from `off` with `count` frames counted so far. It ends
    with fewer than 4 bytes unread, never past the end of the buffer, and
    every frame it counts consumed 4 bytes.
   */
  function NaiveScan(buf: Bytes, off: nat, count: nat): (r: Cursor)
    requires off <= |buf|
    ensures off <= r.offset <= |buf|
    ensures r.offset + 4 > |buf|
    ensures count <= r.count
    ensures 4 * (r.count - count) <= r.offset - off
    decreases |buf| - off
  {
    if off + 4 > |buf| then Cursor(off, count)
    else if IsFrameSync(buf[off], buf[off + 1]) then NaiveScan(buf, off + 4, count + 1)
    else NaiveScan(buf, off + 1, count)
  }

  /** No frame sync starts at or after `off` with 4 bytes available from it. */
  predicate NoSyncFrom(buf: Bytes, off: nat)
  {
    forall p | off <= p && p + 4 <= |buf| :: !IsFrameSync(buf[p], buf[p + 1])
  }

  /**
    A pass counts nothing exactly when no frame sync starts in the part of
    the buffer it can reach: a sync it does not land on lies inside the 4
    bytes of one it counted.
   */
  lemma {:induction false} NaiveCountsIffSync(buf: Bytes, off: nat, count: nat)
    requires off <= |buf|
    ensures NaiveScan(buf, off, count).count == count <==> NoSyncFrom(buf, off)
    decreases |buf| - off
  {
    if off + 4 <= |buf| {
      if IsFrameSync(buf[off], buf[off + 1]) {
        assert !NoSyncFrom(buf, off);
      } else {
        NaiveCountsIffSync(buf, off + 1, count);
        assert NoSyncFrom(buf, off) <==> NoSyncFrom(buf, off + 1) by {
          if NoSyncFrom(buf, off + 1) {
            forall p | off <= p && p + 4 <= |buf|
              ensures !IsFrameSync(buf[p], buf[p + 1])
            {
              if p > off {
                assert off + 1 <= p;
              }
            }
          }
        }
      }
    }
  }

  /** A pass over a longer buffer is the pass over the shorter one continued from where it stopped. */
  lemma {:induction false} NaiveScanExtend(buf: Bytes, more: Bytes, off: nat, count: nat)
    requires off <= |buf|
    ensures var r := NaiveScan(buf, off, count);
      NaiveScan(buf + more, off, count) == NaiveScan(buf + more, r.offset, r.count)
    decreases |buf| - off
  {
    if off + 4 <= |buf| {
      var b := buf + more;
      assert b[off] == buf[off] && b[off + 1] == buf[off + 1];
      if IsFrameSync(buf[off], buf[off + 1]) {
        NaiveScanExtend(buf, more, off + 4, count + 1);
      } else {
        NaiveScanExtend(buf, more, off + 1, count);
      }
    }
  }

  /** A pass over a buffer with its first `k` bytes dropped is the same pass, shifted by `k`. */
  lemma {:induction false} NaiveScanShift(buf: Bytes, k: nat, off: nat, count: nat)
    requires k + off <= |buf|
    ensures var r := NaiveScan(buf, k + off, count);
      NaiveScan(buf[k..], off, count) == Cursor(r.offset - k, r.count)
    decreases |buf| - k - off
  {
    if k + off + 4 <= |buf| {
      var b := buf[k..];
      assert b[off] == buf[k + off] && b[off + 1] == buf[k + off + 1];
      if IsFrameSync(buf[k + off], buf[k + off + 1]) {
        NaiveScanShift(buf, k, off + 4, count + 1);
      } else {
        NaiveScanShift(buf, k, off + 1, count);
      }
    }
  }

  /** The state carried from one chunk to the next. */
  datatype NaiveState = NaiveState(leftover: Bytes, count: nat)

  const NaiveInitial: NaiveState := NaiveState([], 0)

  /**
    One chunk: append it to the leftover, run a pass from offset 0 and keep
    the unread tail, which is at most 3 bytes. Nothing is lost or reordered
    and the count never goes down.
   */
  function NaiveStep(s: NaiveState, chunk: Bytes): (r: NaiveState)
    ensures IsSuffix(r.leftover, s.leftover + chunk)
    ensures |r.leftover| <= 3
    ensures s.count <= r.count
    ensures 4 * (r.count - s.count) <= |s.leftover| + |chunk| - |r.leftover|
  {
    var buf := s.leftover + chunk;
    var cur := NaiveScan(buf, 0, s.count);
    NaiveState(buf[cur.offset..], cur.count)
  }

  /** The state after a sequence of chunks, folding `NaiveStep` from the first chunk to the last. */
  function NaiveRun(chunks: seq<Bytes>): NaiveState
  {
    if |chunks| == 0 then NaiveInitial else NaiveStep(NaiveRun(chunks[..|chunks| - 1]), chunks[|chunks| - 1])
  }

  /** A state holding the tail of one pass over `p` steps, on a new chunk, to the tail of one pass over `p + chunk`. */
  lemma NaiveStepContinuesPass(p: Bytes, chunk: Bytes)
    ensures var prev := NaiveScan(p, 0, 0);
      var f := p + chunk;
      var cur := NaiveScan(f, 0, 0);
      NaiveStep(NaiveState(p[prev.offset..], prev.count), chunk) == NaiveState(f[cur.offset..], cur.count)
  {
    var prev := NaiveScan(p, 0, 0);
    var q := prev.offset;
    var f := p + chunk;
    var buf := p[q..] + chunk;
    assert buf == f[q..];
    NaiveScanExtend(p, chunk, 0, 0);
    var cur := NaiveScan(f, 0, 0);
    NaiveScanShift(f, q, 0, prev.count);
    assert buf[cur.offset - q..] == f[cur.offset..];
  }

  /** The state after any chunks is the tail of one pass over all their bytes. */
  lemma {:induction false} NaiveRunIsOnePass(chunks: seq<Bytes>)
    ensures var f := Flatten(chunks);
      var cur := NaiveScan(f, 0, 0);
      NaiveRun(chunks) == NaiveState(f[cur.offset..], cur.count)
    decreases |chunks|
  {
    if |chunks| > 0 {
      var init := chunks[..|chunks| - 1];
      NaiveRunIsOnePass(init);
      NaiveStepContinuesPass(Flatten(init), chunks[|chunks| - 1]);
    }
  }

  /** Chunk-boundary invariance: however a stream is split, the naive state is that of delivering it as one chunk. */
  lemma NaiveChunkBoundaryInvariance(chunks: seq<Bytes>)
    ensures NaiveRun(chunks) == NaiveRun([Flatten(chunks)])
  {
    var f := Flatten(chunks);
    NaiveRunIsOnePass(chunks);
    NaiveRunIsOnePass([f]);
    assert Flatten([f]) == f by {
      var none: seq<Bytes> := [];
      assert [f][..0] == none;
    }
  }

  /**
    The naive count of a stream is 0 exactly when no frame sync starts at a
    position with at least 4 bytes from it to the end of the stream.
   */
  lemma NaiveCountsZeroIffNoSync(chunks: seq<Bytes>)
    ensures NaiveRun(chunks).count == 0 <==> NoSyncFrom(Flatten(chunks), 0)
  {
    NaiveRunIsOnePass(chunks);
    NaiveCountsIffSync(Flatten(chunks), 0, 0);
  }

  /** The upload "not a valid mp3 file at all" counts zero frames here too, however it is split. */
  lemma NaiveNotAnMp3CountsZero(chunks: seq<Bytes>)
    requires Flatten(chunks) == Mp3Properties.NotAnMp3
    ensures NaiveRun(chunks).count == 0
  {
    var text := Mp3Properties.NotAnMp3;
    assert forall i | 0 <= i < |text| :: text[i] < 0x80;
    NaiveCountsZeroIffNoSync(chunks);
  }

  /** Later chunks never lower the count. */
  lemma {:induction false} NaiveRunMonotone(chunks: seq<Bytes>, more: seq<Bytes>)
    ensures NaiveRun(chunks).count <= NaiveRun(chunks + more).count
    decreases |more|
  {
    if |more| == 0 {
      assert chunks + more == chunks;
    } else {
      var all := chunks + more;
      var fewer := more[..|more| - 1];
      var prev := NaiveRun(chunks + fewer);
      NaiveRunMonotone(chunks, fewer);
      assert NaiveRun(all) == NaiveStep(prev, more[|more| - 1]) by {
        assert all[..|all| - 1] == chunks + fewer;
        assert all[|all| - 1] == more[|more| - 1];
      }
    }
  }

  /** The count is at most a quarter of the bytes received. */
  lemma {:induction false} NaiveCountBound(chunks: seq<Bytes>)
    ensures 4 * NaiveRun(chunks).count <= |Flatten(chunks)|
  {
    NaiveRunIsOnePass(chunks);
  }

  /** The naive counter as the source writes it: a loop over the chunks and, inside, the sync-word loop. */
  method CountMp3Frames(stream: seq<Bytes>) returns (frameCount: nat)
    ensures frameCount == NaiveRun(stream).count
  {
    frameCount := 0;
    var buffer: Bytes := [];
    for i := 0 to |stream|
      invariant NaiveRun(stream[..i]) == NaiveState(buffer, frameCount)
    {
      assert stream[..i + 1][..i] == stream[..i];
      ghost var before := NaiveState(buffer, frameCount);
      buffer := buffer + stream[i];
      var offset := 0;
      while offset + 4 <= |buffer|
        invariant offset <= |buffer|
        invariant NaiveScan(buffer, offset, frameCount) == NaiveScan(buffer, 0, before.count)
        decreases |buffer| - offset
      {
        if buffer[offset] == 0xFF && buffer[offset + 1] & 0xE0 == 0xE0 {
          frameCount := frameCount + 1;
          offset := offset + 4;
        } else {
          offset := offset + 1;
        }
      }
      buffer := buffer[offset..];
    }
    assert stream[..|stream|] == stream;
  }
}

=== FILE: frame_header.dfy ===
/**
  The four-byte header of an MPEG-1 Layer III frame (ISO/IEC 11172-3,
  clause 2.4.2.3): the 11-bit frame sync, and the bitrate index,
  sampling-frequency index and padding bit of the third byte, decoded through
  the fixed lookup tables the counter carries.
 */
module FrameHeader {
  import opened Stream

  /** Bitrates in kbit/s by bitrate index; index 0 (free format) and 15 (forbidden) hold 0. */
  const BitrateTable: seq<nat> := [0, 32, 40, 48, 56, 64, 80, 96, 112, 128, 160, 192, 224, 256, 320, 0]

  /** Sampling frequencies in Hz by sampling-frequency index; the reserved index 3 holds 0. */
  const SampleRateTable: seq<nat> := [44100, 48000, 32000, 0]

  /** The bitrate table entry at index `i`, as a case split the solver evaluates cheaply. */
  function BitrateOf(i: nat): (k: nat)
    requires i < 16
    ensures k == BitrateTable[i]
  {
    if i < 8 then
      if i < 4 then (if i == 0 then 0 else if i == 1 then 32 else if i == 2 then 40 else 48)
      else (if i == 4 then 56 else if i == 5 then 64 else if i == 6 then 80 else 96)
    else
      if i < 12 then (if i == 8 then 112 else if i == 9 then 128 else if i == 10 then 160 else 192)
      else (if i == 12 then 224 else if i == 13 then 256 else if i == 14 then 320 else 0)
  }

  /** The sample-rate table entry at index `i`, as a case split. */
  function SampleRateOf(i: nat): (k: nat)
    requires i < 4
    ensures k == SampleRateTable[i]
  {
    if i == 0 then 44100 else if i == 1 then 48000 else if i == 2 then 32000 else 0
  }

  /** The frame sync: a 0xFF byte, then a byte whose top three bits are set. */
  predicate IsFrameSync(b0: Byte, b1: Byte)
  {
    b0 == 0xFF && b1 & 0xE0 == 0xE0
  }

  function BitrateIndex(b2: Byte): nat
  {
    ((b2 >> 4) & 0x0F) as nat
  }

  function SampleRateIndex(b2: Byte): nat
  {
    ((b2 >> 2) & 0x03) as nat
  }

  function Padding(b2: Byte): nat
  {
    ((b2 >> 1) & 0x01) as nat
  }

  lemma HighNibble(b: Byte)
    ensures ((b >> 4) & 0x0F) as nat == b as nat / 16
  {
  }

  lemma BitsThreeTwo(b: Byte)
    ensures ((b >> 2) & 0x03) as nat == b as nat / 4 % 4
  {
  }

  lemma BitOne(b: Byte)
    ensures ((b >> 1) & 0x01) as nat == b as nat / 2 % 2
  {
  }

  /** The header fields as numbers, read arithmetically from the byte's value. */
  lemma {:induction false} FieldsAsNumbers(b2: Byte)
    ensures BitrateIndex(b2) == b2 as nat / 16
    ensures SampleRateIndex(b2) == b2 as nat / 4 % 4
    ensures Padding(b2) == b2 as nat / 2 % 2
  {
    HighNibble(b2);
    BitsThreeTwo(b2);
    BitOne(b2);
  }

  /** The third header byte carrying the given fields; `privateBit` fills bit 0. */
  function HeaderByte(bitrateIndex: Byte, sampleRateIndex: Byte, padding: Byte, privateBit: Byte): Byte
    requires bitrateIndex < 16 && sampleRateIndex < 4 && padding < 2 && privateBit < 2
  {
    (bitrateIndex << 4) | (sampleRateIndex << 2) | (padding << 1) | privateBit
  }

  /** Reading the fields back from a byte built from them gives the same fields. */
  lemma HeaderFieldsRoundTrip(bitrateIndex: Byte, sampleRateIndex: Byte, padding: Byte, privateBit: Byte)
    requires bitrateIndex < 16 && sampleRateIndex < 4 && padding < 2 && privateBit < 2
    ensures var b2 := HeaderByte(bitrateIndex, sampleRateIndex, padding, privateBit);
      && BitrateIndex(b2) == bitrateIndex as nat
      && SampleRateIndex(b2) == sampleRateIndex as nat
      && Padding(b2) == padding as nat
  {
  }

  /** Every byte is the header byte of its own fields: the three fields and bit 0 cover all eight bits. */
  lemma HeaderByteOfFields(b2: Byte)
    ensures b2 == HeaderByte((b2 >> 4) & 0x0F, (b2 >> 2) & 0x03, (b2 >> 1) & 0x01, b2 & 0x01)
  {
  }

  datatype Header = Header(bitrateKbps: nat, sampleRateHz: nat, padding: nat)

  /** A decoded third header byte; `Invalid` is a false sync the scan steps over. */
  datatype Decoded = Invalid | Valid(header: Header)

  /**
    Table lookups for the third header byte. A zero bitrate or sample rate
    rejects the candidate: that is exactly bitrate index 0 or 15, or
    sampling-frequency index 3.
   */
  function Decode(b2: Byte): (r: Decoded)
    ensures r.Valid? <==> 1 <= BitrateIndex(b2) <= 14 && SampleRateIndex(b2) <= 2
  {
    var bitrate := BitrateOf(BitrateIndex(b2));
    var sampleRate := SampleRateOf(SampleRateIndex(b2));
    if bitrate == 0 || sampleRate == 0 then Invalid else Valid(Header(bitrate, sampleRate, Padding(b2)))
  }

  /** A valid header has a standard sample rate, a bitrate of 32 to 320 kbit/s and a padding of 0 or 1. */
  lemma DecodeRanges(b2: Byte)
    requires Decode(b2).Valid?
    ensures Decode(b2).header.sampleRateHz in {32000, 44100, 48000}
    ensures 32 <= Decode(b2).header.bitrateKbps <= 320 && Decode(b2).header.padding <= 1
  {
  }

  /** Bytes in a Layer III frame, header included: 144 * bitrate / sample rate, rounded down, plus padding. */
  function FrameSize(h: Header): nat
    requires h.sampleRateHz > 0
  {
    144 * h.bitrateKbps * 1000 / h.sampleRateHz + h.padding
  }

  /** Every valid header describes a frame of 96 to 1441 bytes. */
  lemma FrameSizeBounds(h: Header)
    requires h.sampleRateHz in {32000, 44100, 48000}
    requires 32 <= h.bitrateKbps <= 320 && h.padding <= 1
    ensures 96 <= FrameSize(h) <= 1441
  {
    var n := 144000 * h.bitrateKbps;
    assert 144 * h.bitrateKbps * 1000 == n;
    if h.sampleRateHz == 32000 {
      assert n / 32000 <= 1440;
    } else if h.sampleRateHz == 44100 {
      assert 104 <= n / 44100 <= 1044;
    } else {
      assert 96 <= n / 48000 <= 960;
    }
  }

  /** The frame size a valid third header byte announces. */
  function FrameSizeOf(b2: Byte): (n: nat)
    requires Decode(b2).Valid?
    ensures 96 <= n <= 1441
  {
    DecodeRanges(b2);
    FrameSizeBounds(Decode(b2).header);
    FrameSize(Decode(b2).header)
  }
}

=== FILE: id3_deferral.dfy ===
/**
  The ID3 gate and chunk boundaries. While the ID3 decision is pending
  (fewer than 10 bytes held, or a buffer starting with "ID3" whose tag is not
  fully buffered yet) the counter still runs its pass from offset 0, so the
  bytes held, those of a tag included, are scanned as audio and consumed.
  Once they are consumed the buffer no longer starts with the tag, and the
  later decision is taken on whatever follows: a first chunk of 4 bytes
  "ID3" and a version byte loses its "I" to the pass, and the next buffer
  of 10 or more bytes decides with nothing skipped. The count then depends
  on where the stream was split, both ways: a tag can be counted as audio,
  and audio can be skipped as a tag once a leading byte is consumed and the
  rest opens with "ID3". This module exhibits one stream of each kind and
  gives the corrected step, which runs no pass while the decision is
  pending, with chunk-boundary invariance proved for every stream.
 */
module Id3Deferral {
  import opened Stream
  import opened FrameHeader
  import opened Id3Tag
  import opened VbrTag
  import opened Mp3
  import opened Mp3Properties

  function Zeros(n: nat): (z: Bytes)
    ensures |z| == n && forall i | 0 <= i < n :: z[i] == 0
  {
    seq(n, _ => 0)
  }

  /** An ID3v2.4 tag header announcing a 100-byte body: the whole tag is 110 bytes. */
  const TagHeader100: Bytes := [0x49, 0x44, 0x33, 0x04, 0x00, 0x00, 0x00, 0x00, 0x00, 0x64]

  /** A frame header for 32 kbit/s at 48000 Hz without padding: a 96-byte frame. */
  const Header32k: Bytes := [0xFF, 0xFB, 0x14, 0x00]

  /**
    A 110-byte stream that is one ID3 tag: its body holds bytes that look
    like a complete 96-byte frame, then four zero bytes.
   */
  const TagOnly: Bytes := TagHeader100 + Header32k + Zeros(96)

  /** The split of `TagOnly` just after the frame-like bytes of its body. */
  const SplitPoint: nat := 106

  lemma TagOnlyBytes()
    ensures |TagOnly| == 110
    ensures TagOnly[..10] == TagHeader100
    ensures TagOnly[10] == 0xFF && TagOnly[11] == 0xFB && TagOnly[12] == 0x14
    ensures forall i | 13 <= i < 110 :: TagOnly[i] == 0
  {
  }

  /** The whole tag decides with all 110 bytes skipped; its first 106 bytes leave the decision pending. */
  lemma TagOnlyDecisions()
    ensures DecideId3(TagOnly) == Decided(110)
    ensures DecideId3(TagOnly[..SplitPoint]) == Pending
  {
    TagOnlyBytes();
    var a := TagOnly[..SplitPoint];
    assert a[..10] == TagHeader100;
    assert TagOnly[0] == 0x49 && TagOnly[1] == 0x44 && TagOnly[2] == 0x33;
    assert a[0] == 0x49 && a[1] == 0x44 && a[2] == 0x33;
    assert TagOnly[6] == 0 && TagOnly[7] == 0 && TagOnly[8] == 0 && TagOnly[9] == 0x64;
    assert a[6] == 0 && a[7] == 0 && a[8] == 0 && a[9] == 0x64;
    assert SynchsafeValue(0, 0, 0, 0x64) == 100;
  }

  /** Bytes with no 0xFF are stepped over one at a time. */
  lemma {:induction false} ScanSkipsNonSync(buf: Bytes, off: nat, k: nat, count: nat)
    requires off + k + 4 <= |buf|
    requires forall i | off <= i < off + k :: buf[i] != 0xFF
    ensures Scan(buf, off, count) == Scan(buf, off + k, count)
    decreases k
  {
    if k > 0 {
      assert Examine(buf, off) == Resync;
      ScanSkipsNonSync(buf, off + 1, k - 1, count);
    }
  }

  /** Within the first 106 bytes the frame-like body bytes form a complete, counted frame at offset 10. */
  lemma InnerFrameCounted()
    ensures Examine(TagOnly[..SplitPoint], 10) == Frame(96, true)
  {
    TagOnlyBytes();
    var a := TagOnly[..SplitPoint];
    assert a[10] == 0xFF && a[11] == 0xFB && a[12] == 0x14;
    assert BitrateIndex(0x14) == 1 && SampleRateIndex(0x14) == 1 && Padding(0x14) == 0;
    assert Decode(0x14) == Valid(Header(32, 48000, 0));
    assert FrameSizeOf(0x14) == 96;
    assert a[46] == 0 && a[42] == 0;
    assert !IsMetadataFrame(a, 10);
  }

  /** The pass over the first 106 bytes counts the frame-like bytes and consumes everything. */
  lemma FirstPartPass()
    ensures Scan(TagOnly[..SplitPoint], 0, 0) == Cursor(106, 1)
  {
    TagOnlyBytes();
    var a := TagOnly[..SplitPoint];
    assert a[..10] == TagHeader100;
    assert forall i | 0 <= i < 10 :: a[i] != 0xFF;
    ScanSkipsNonSync(a, 0, 10, 0);
    InnerFrameCounted();
    assert Scan(a, 10, 0) == Scan(a, 106, 1);
  }

  lemma RunOfTwoChunks(first: Bytes, second: Bytes)
    ensures Run([first, second]) == Step(Step(Initial, first), second)
  {
    assert [first, second][..1] == [first];
    RunOfOneChunk(first);
  }

  /** Delivered as one chunk, the tag-only stream is skipped whole and counts nothing. */
  lemma TagOnlyWhole()
    ensures Run([TagOnly]).count == 0
  {
    TagOnlyBytes();
    TagOnlyDecisions();
    RunOfOneChunk(TagOnly);
    assert Initial.leftover + TagOnly == TagOnly;
  }

  /** Its first 106 bytes leave the decision pending, and the pass counts the frame-like bytes and consumes them all. */
  lemma TagOnlyFirstStep()
    ensures Step(Initial, TagOnly[..SplitPoint]) == ScanState([], false, 1)
  {
    var a := TagOnly[..SplitPoint];
    TagOnlyDecisions();
    assert Initial.leftover + a == a;
    FirstPartPass();
  }

  /**
    The last 4 zero bytes leave the decision pending; the pass steps over one
    of them and adds no frame, so the count stays 1.
   */
  lemma TagOnlySecondStep()
    ensures !Step(ScanState([], false, 1), TagOnly[SplitPoint..]).id3Decided
    ensures Step(ScanState([], false, 1), TagOnly[SplitPoint..]).count == 1
  {
    var b := TagOnly[SplitPoint..];
    TagOnlyBytes();
    assert ScanState([], false, 1).leftover + b == b;
    assert |b| == 4 && b[0] == 0;
    assert Examine(b, 0) == Resync;
  }

  /**
    The stream counts differently depending on how it is split: delivered as
    one chunk the tag is skipped and nothing is counted; split after byte 106,
    the tag is still pending on the first chunk, the pass scans its body and
    counts the frame-like bytes in it.
   */
  lemma SplitTagCounterexample()
    ensures Flatten([TagOnly]) == TagOnly
    ensures Flatten([TagOnly[..SplitPoint], TagOnly[SplitPoint..]]) == TagOnly
    ensures Run([TagOnly]).count == 0
    ensures Run([TagOnly[..SplitPoint], TagOnly[SplitPoint..]]).count == 1
  {
    var a, b := TagOnly[..SplitPoint], TagOnly[SplitPoint..];
    assert Flatten([a, b]) == Flatten([a]) + b;
    TagOnlyWhole();
    TagOnlyFirstStep();
    TagOnlySecondStep();
    RunOfTwoChunks(a, b);
  }

  /**
    Audio that does not start with a tag: one "X" byte, then the bytes of
    `TagOnly`. Delivered whole, the pass runs from offset 0 and counts the
    frame at offset 11.
   */
  const LeadThenTag: Bytes := [0x58] + TagOnly

  /** The point after which the first pass has consumed the "X" and the rest opens with "ID3". */
  const LeadSplit: nat := 4

  lemma LeadThenTagPass()
    ensures Scan(LeadThenTag, 0, 0).count == 1
  {
    TagOnlyBytes();
    var x := LeadThenTag;
    assert |x| == 111 && x[1..] == TagOnly;
    assert forall i | 1 <= i < 11 :: x[i] == TagHeader100[i - 1];
    assert forall i | 0 <= i < 11 :: x[i] != 0xFF;
    ScanSkipsNonSync(x, 0, 11, 0);
    assert x[11] == 0xFF && x[12] == 0xFB && x[13] == 0x14;
    assert BitrateIndex(0x14) == 1 && SampleRateIndex(0x14) == 1 && Padding(0x14) == 0;
    assert Decode(0x14) == Valid(Header(32, 48000, 0));
    assert FrameSizeOf(0x14) == 96;
    assert x[47] == 0 && x[43] == 0;
    assert !IsMetadataFrame(x, 11);
    assert Examine(x, 11) == Frame(96, true);
    assert Scan(x, 11, 0) == Scan(x, 107, 1);
    assert x[107] == 0;
    assert Scan(x, 107, 1) == Scan(x, 108, 1);
  }

  /** Delivered whole, the stream counts the frame. */
  lemma LeadThenTagWhole()
    ensures Run([LeadThenTag]).count == 1
  {
    var x := LeadThenTag;
    TagOnlyBytes();
    RunOfOneChunk(x);
    assert Initial.leftover + x == x;
    assert |x| == 111 && x[0] == 0x58;
    assert DecideId3(x) == Decided(0);
    LeadThenTagPass();
  }

  /** The first 4 bytes leave the decision pending and lose the "X" to the pass. */
  lemma LeadThenTagFirstStep()
    ensures Step(Initial, LeadThenTag[..LeadSplit]) == ScanState(TagOnly[..3], false, 0)
  {
    var a := LeadThenTag[..LeadSplit];
    assert Initial.leftover + a == a;
    assert a[0] == 0x58 && a[1..] == TagOnly[..3];
    assert DecideId3(a) == Pending;
    assert Examine(a, 0) == Resync;
    assert Scan(a, 0, 0) == Cursor(1, 0);
  }

  /** The rest, after those three bytes, is the whole tag-only stream, skipped as a tag. */
  lemma LeadThenTagSecondStep()
    ensures Step(ScanState(TagOnly[..3], false, 0), LeadThenTag[LeadSplit..]).count == 0
  {
    TagOnlyBytes();
    assert TagOnly[..3] + LeadThenTag[LeadSplit..] == TagOnly;
    TagOnlyDecisions();
    assert Scan(TagOnly, 110, 0) == Cursor(110, 0);
  }

  /**
    The same cause the other way round: delivered whole the stream counts 1;
    split after byte 4, the first pass consumes the "X", the second buffer
    opens with "ID3", and 110 bytes of audio, a countable frame among them,
    are skipped as a tag.
   */
  lemma SkippedAudioCounterexample()
    ensures Flatten([LeadThenTag]) == LeadThenTag
    ensures Flatten([LeadThenTag[..LeadSplit], LeadThenTag[LeadSplit..]]) == LeadThenTag
    ensures Run([LeadThenTag]).count == 1
    ensures Run([LeadThenTag[..LeadSplit], LeadThenTag[LeadSplit..]]).count == 0
  {
    var a, b := LeadThenTag[..LeadSplit], LeadThenTag[LeadSplit..];
    assert Flatten([a, b]) == Flatten([a]) + b;
    LeadThenTagWhole();
    LeadThenTagFirstStep();
    LeadThenTagSecondStep();
    RunOfTwoChunks(a, b);
  }

  /**
    The corrected step: while the ID3 decision is pending no pass runs and
    the whole buffer is kept, so the tag is skipped whole once it is complete.
    After the decision it is the step of the source.
   */
  function StepDeferred(s: ScanState, chunk: Bytes): (r: ScanState)
    ensures r.id3Decided <==> s.id3Decided || DecideId3(s.leftover + chunk).Decided?
    ensures !r.id3Decided ==> r.leftover == s.leftover + chunk && r.count == s.count
    ensures s.count <= r.count
    ensures IsSuffix(r.leftover, s.leftover + chunk)
    ensures 96 * (r.count - s.count) <= |s.leftover| + |chunk| - |r.leftover|
  {
    var buf := s.leftover + chunk;
    var d := if s.id3Decided then Decided(0) else DecideId3(buf);
    match d
    case Pending => ScanState(buf, false, s.count)
    case Decided(start) =>
      var cur := Scan(buf, start, s.count);
      ScanState(buf[cur.offset..], true, cur.count)
  }

  /** Once the decision is taken, no pass can advance in the leftover the corrected step keeps. */
  lemma StepDeferredSettles(s: ScanState, chunk: Bytes)
    ensures StepDeferred(s, chunk).id3Decided ==> Settled(StepDeferred(s, chunk).leftover)
  {
    var buf := s.leftover + chunk;
    var d := if s.id3Decided then Decided(0) else DecideId3(buf);
    if d.Decided? {
      TailOfPassIsSettled(buf, d.start, s.count);
    }
  }

  /** The corrected fold over a sequence of chunks. */
  function RunDeferred(chunks: seq<Bytes>): ScanState
  {
    if |chunks| == 0 then Initial else StepDeferred(RunDeferred(chunks[..|chunks| - 1]), chunks[|chunks| - 1])
  }

  /** Once the decision is taken, or is taken on this chunk, the corrected step is the step of the source. */
  lemma DeferredAgreesOnceDecided(s: ScanState, chunk: Bytes)
    requires s.id3Decided || DecideId3(s.leftover + chunk).Decided?
    ensures StepDeferred(s, chunk) == Step(s, chunk)
  {
  }

  /**
    The corrected state after any chunks depends only on their concatenation:
    with the decision still pending it holds every byte and no count; once it
    is taken it is the tail of one pass over all bytes from the decided start.
   */
  lemma {:induction false} RunDeferredIsOnePass(chunks: seq<Bytes>)
    ensures var f := Flatten(chunks);
      match DecideId3(f)
      case Pending => RunDeferred(chunks) == ScanState(f, false, 0)
      case Decided(start) =>
        var cur := Scan(f, start, 0);
        RunDeferred(chunks) == ScanState(f[cur.offset..], true, cur.count)
    decreases |chunks|
  {
    if |chunks| > 0 {
      var init := chunks[..|chunks| - 1];
      var chunk := chunks[|chunks| - 1];
      var p := Flatten(init);
      var f := p + chunk;
      assert Flatten(chunks) == f;
      RunDeferredIsOnePass(init);
      if DecideId3(p).Decided? {
        assert f[..|p|] == p;
        DecisionSurvivesMoreBytes(p, f);
        StepContinuesPass(p, chunk, DecideId3(p).start);
      }
    }
  }

  /**
    Chunk-boundary invariance of the corrected counter, for every stream:
    splitting it anywhere, inside the ID3 tag included, gives the state of
    delivering it as one chunk.
   */
  lemma {:induction false} DeferredChunkBoundaryInvariance(chunks: seq<Bytes>)
    ensures RunDeferred(chunks) == RunDeferred([Flatten(chunks)])
  {
    var f := Flatten(chunks);
    RunDeferredIsOnePass(chunks);
    RunDeferredIsOnePass([f]);
    assert Flatten([f]) == f by {
      var none: seq<Bytes> := [];
      assert [f][..0] == none;
    }
  }

  /** When the first chunk already settles the ID3 question the correction changes nothing. */
  lemma {:induction false} DeferredAgreesWithSource(chunks: seq<Bytes>)
    requires |chunks| > 0 && DecideId3(chunks[0]).Decided?
    ensures RunDeferred(chunks) == Run(chunks)
  {
    var f := Flatten(chunks);
    FlattenStartsWithFirst(chunks);
    DecisionSurvivesMoreBytes(chunks[0], f);
    RunDeferredIsOnePass(chunks);
    RunIsOnePass(chunks);
  }

  /** The corrected counter counts the audio split after its fourth byte as 1, like the unsplit stream. */
  lemma SkippedAudioCorrected()
    ensures RunDeferred([LeadThenTag[..LeadSplit], LeadThenTag[LeadSplit..]]).count == 1
  {
    SkippedAudioCounterexample();
    assert LeadThenTag[0] == 0x58 && |LeadThenTag| == 111 by {
      TagOnlyBytes();
    }
    DeferredChunkBoundaryInvariance([LeadThenTag[..LeadSplit], LeadThenTag[LeadSplit..]]);
    DeferredAgreesWithSource([LeadThenTag]);
  }

  /** The corrected counter counts the split tag-only stream as 0, like the unsplit one. */
  lemma SplitTagCorrected()
    ensures RunDeferred([TagOnly[..SplitPoint], TagOnly[SplitPoint..]]).count == 0
  {
    SplitTagCounterexample();
    TagOnlyDecisions();
    DeferredChunkBoundaryInvariance([TagOnly[..SplitPoint], TagOnly[SplitPoint..]]);
    DeferredAgreesWithSource([TagOnly]);
  }
}

=== FILE: id3_tag.dfy ===
/**
  The leading ID3v2 tag an MP3 stream may carry (ID3v2.4 structure document,
  section 3.1): a 10-byte header starting with ASCII "ID3" whose bytes 6 to 9
  hold the body size as a 28-bit synchsafe integer, and the one-shot decision
  the counter takes about it on its first buffer of at least 10 bytes.
 */
module Id3Tag {
  import opened Stream

  /** Length of the ID3v2 tag header; no decision is taken on fewer bytes. */
  const HeaderSize: nat := 10

  /** Bytes 0 to 2 spell ASCII "ID3". */
  predicate IsId3Header(buf: Bytes)
    requires |buf| >= 3
  {
    buf[0] == 0x49 && buf[1] == 0x44 && buf[2] == 0x33
  }

  /** The low 7 bits of a byte, the part a synchsafe integer keeps. */
  function Low7(b: Byte): (v: nat)
    ensures v < 0x80
    ensures v == b as nat % 0x80
  {
    (b & 0x7F) as nat
  }

  /**
    The synchsafe integer held in four bytes, most significant first. Each
    byte's top bit is dropped and never checked; the fields occupy disjoint
    bits, so combining them with bitwise or is the sum written here
    (`SynchsafeAsShiftOr`).
   */
  function SynchsafeValue(b6: Byte, b7: Byte, b8: Byte, b9: Byte): (n: nat)
    ensures n < 0x1000_0000
  {
    Low7(b6) * 0x20_0000 + Low7(b7) * 0x4000 + Low7(b8) * 0x80 + Low7(b9)
  }

  /**
    The size as the reader combines it: each 7-bit field shifted into place
    in a 32-bit integer and the four joined with bitwise or. The value is the
    sum `SynchsafeValue` writes.
   */
  lemma SynchsafeAsShiftOr(b6: Byte, b7: Byte, b8: Byte, b9: Byte)
    ensures var w := ((b6 & 0x7F) as bv32 << 21) | ((b7 & 0x7F) as bv32 << 14) | ((b8 & 0x7F) as bv32 << 7) | (b9 & 0x7F) as bv32;
      w as nat == SynchsafeValue(b6, b7, b8, b9)
  {
  }

  lemma DigitsOf(a: nat, b: nat, c: nat, d: nat)
    requires a < 0x80 && b < 0x80 && c < 0x80 && d < 0x80
    ensures var n := a * 0x20_0000 + b * 0x4000 + c * 0x80 + d;
      n / 0x20_0000 == a && n / 0x4000 % 0x80 == b && n / 0x80 % 0x80 == c && n % 0x80 == d
  {
    var n := a * 0x20_0000 + b * 0x4000 + c * 0x80 + d;
    var q0 := a * 0x4000 + b * 0x80 + c;
    assert n == q0 * 0x80 + d;
    assert n / 0x80 == q0 && n % 0x80 == d;
    var q1 := a * 0x80 + b;
    assert q0 == q1 * 0x80 + c;
    assert q0 / 0x80 == q1 && q0 % 0x80 == c;
    assert n == q1 * 0x4000 + (c * 0x80 + d);
    assert n / 0x4000 == q1;
    assert q1 / 0x80 == a && q1 % 0x80 == b;
    assert n == a * 0x20_0000 + (b * 0x4000 + c * 0x80 + d);
  }

  lemma Digits(n: nat)
    requires n < 0x1000_0000
    ensures n / 0x20_0000 * 0x20_0000 + n / 0x4000 % 0x80 * 0x4000 + n / 0x80 % 0x80 * 0x80 + n % 0x80 == n
  {
    var q0, r0 := n / 0x80, n % 0x80;
    assert n == q0 * 0x80 + r0;
    var q1, r1 := q0 / 0x80, q0 % 0x80;
    assert q0 == q1 * 0x80 + r1;
    var q2, r2 := q1 / 0x80, q1 % 0x80;
    assert q1 == q2 * 0x80 + r2;
    assert n / 0x4000 == q1;
    assert n / 0x20_0000 == q2;
  }

  /**
    Four bytes hold the value `n` exactly when their low 7 bits are the base-128
    digits of `n`, most significant first: every value below 2^28 has an
    encoding, and two encodings of one value differ at most in the top bits.
   */
  lemma {:induction false} DigitsIff(a: nat, b: nat, c: nat, d: nat, n: nat)
    requires a < 0x80 && b < 0x80 && c < 0x80 && d < 0x80 && n < 0x1000_0000
    ensures a * 0x20_0000 + b * 0x4000 + c * 0x80 + d == n <==>
      (a == n / 0x20_0000 && b == n / 0x4000 % 0x80 && c == n / 0x80 % 0x80 && d == n % 0x80)
  {
    if a * 0x20_0000 + b * 0x4000 + c * 0x80 + d == n {
      DigitsOf(a, b, c, d);
    }
    if a == n / 0x20_0000 && b == n / 0x4000 % 0x80 && c == n / 0x80 % 0x80 && d == n % 0x80 {
      Digits(n);
    }
  }

  lemma {:induction false} SynchsafeDigits(b6: Byte, b7: Byte, b8: Byte, b9: Byte, n: nat)
    requires n < 0x1000_0000
    ensures SynchsafeValue(b6, b7, b8, b9) == n <==>
      (Low7(b6) == n / 0x20_0000 && Low7(b7) == n / 0x4000 % 0x80 &&
       Low7(b8) == n / 0x80 % 0x80 && Low7(b9) == n % 0x80)
  {
    DigitsIff(Low7(b6), Low7(b7), Low7(b8), Low7(b9), n);
  }

  /** The top bit of each size byte is ignored, not rejected. */
  lemma SynchsafeIgnoresTopBits(b6: Byte, b7: Byte, b8: Byte, b9: Byte)
    ensures SynchsafeValue(b6 | 0x80, b7 | 0x80, b8 | 0x80, b9 | 0x80) == SynchsafeValue(b6, b7, b8, b9)
    ensures SynchsafeValue(b6 & 0x7F, b7 & 0x7F, b8 & 0x7F, b9 & 0x7F) == SynchsafeValue(b6, b7, b8, b9)
  {
  }

  /** Header plus declared body: the bytes the whole tag occupies. */
  function TagSize(buf: Bytes): nat
    requires |buf| >= HeaderSize
  {
    HeaderSize + SynchsafeValue(buf[6], buf[7], buf[8], buf[9])
  }

  /** The outcome of the one-shot ID3 check: not taken yet, or taken with the offset the first scan starts at. */
  datatype Id3Decision = Pending | Decided(start: nat)

  /**
    The ID3 check on a buffer, taken while no decision has been made. Fewer than
    10 bytes, or a tag not yet fully buffered, leave it pending; a buffer not
    starting with "ID3" decides with nothing skipped; a fully buffered tag
    decides with the whole tag skipped.
   */
  function DecideId3(buf: Bytes): (d: Id3Decision)
    ensures d.Pending? <==> |buf| < HeaderSize || (IsId3Header(buf) && |buf| < TagSize(buf))
    ensures d == Decided(0) <==> |buf| >= HeaderSize && !IsId3Header(buf)
    ensures d.Decided? && d.start > 0 <==> |buf| >= HeaderSize && IsId3Header(buf) && TagSize(buf) <= |buf|
    ensures d.Decided? && d.start > 0 ==> d.start == TagSize(buf)
    ensures d.Decided? ==> d.start <= |buf|
  {
    if |buf| < HeaderSize then Pending
    else if !IsId3Header(buf) then Decided(0)
    else if |buf| >= TagSize(buf) then Decided(TagSize(buf))
    else Pending
  }

  /** A decision taken on a buffer is the one taken on any longer buffer that starts with it. */
  lemma DecisionSurvivesMoreBytes(p: Bytes, q: Bytes)
    requires |p| <= |q| && q[..|p|] == p
    requires DecideId3(p).Decided?
    ensures DecideId3(q) == DecideId3(p)
  {
    assert q[0] == p[0] && q[1] == p[1] && q[2] == p[2];
    assert q[6] == p[6] && q[7] == p[7] && q[8] == p[8] && q[9] == p[9];
  }
}

=== FILE: mp3.dfy ===
/**
  The streaming MPEG-1 Layer III frame counter. Chunks are appended to the
  bytes left over from the previous pass; once per stream a leading ID3v2 tag
  is skipped; then a pass walks an offset through the buffer, stepping one byte
  past anything that is not a valid frame header, stopping at a frame not yet
  fully buffered, and counting every complete frame that is not a VBR summary.
  The bytes from the stopping offset on are kept for the next chunk.
 */
module Mp3 {
  import opened Stream
  import opened FrameHeader
  import opened Id3Tag
  import opened VbrTag

  /** What a pass finds at one offset. */
  datatype Candidate =
    | Resync                          // no frame sync, or an invalid index: step one byte
    | Incomplete                      // a valid header whose frame is not fully buffered yet
    | Frame(size: nat, counted: bool) // a complete frame; counted unless it is a VBR summary

  /** The candidate at `off`: a complete frame always lies inside the buffer and spans at least 96 bytes. */
  function Examine(buf: Bytes, off: nat): (c: Candidate)
    requires off + 4 <= |buf|
    ensures c.Frame? ==> 96 <= c.size && off + c.size <= |buf|
  {
    if !IsFrameSync(buf[off], buf[off + 1]) then Resync
    else match Decode(buf[off + 2])
      case Invalid => Resync
      case Valid(h) =>
        var size := FrameSizeOf(buf[off + 2]);
        if off + size <= |buf| then Frame(size, !IsMetadataFrame(buf, off))
        else Incomplete
  }

  /**
    What the candidate at `off` is, in terms of the header fields: a step of
    one byte exactly when the sync or an index is invalid; a complete frame
    whose size (and so the advance) depends on the third header byte alone;
    counted exactly when no VBR tag sits at its place.
   */
  lemma ExamineSpec(buf: Bytes, off: nat)
    requires off + 4 <= |buf|
    ensures var c := Examine(buf, off);
      && (c.Resync? <==> !IsFrameSync(buf[off], buf[off + 1]) || Decode(buf[off + 2]).Invalid?)
      && (c.Frame? <==>
           IsFrameSync(buf[off], buf[off + 1]) && Decode(buf[off + 2]).Valid? && off + FrameSizeOf(buf[off + 2]) <= |buf|)
      && (c.Frame? ==> c.size == FrameSizeOf(buf[off + 2]) && c.size <= 1441)
      && (c.Frame? ==> (c.counted <==> !(buf[off + 36..off + 40] in {Xing, Info} || buf[off + 32..off + 36] == Vbri)))
  {
    var c := Examine(buf, off);
    if c.Frame? {
      ClassificationOfCompleteFrame(buf, off, c.size);
    }
  }

  /** A pass stops at `off`: fewer than four bytes remain, or the frame there is not fully buffered. */
  predicate StopsAt(buf: Bytes, off: nat)
    requires off <= |buf|
  {
    off + 4 > |buf| || Examine(buf, off).Incomplete?
  }

  /**
    One pass over `buf` from `off` with `count` frames counted so far. It ends
    inside the buffer, and every frame it counts consumed at least 96 bytes.
   */
  function Scan(buf: Bytes, off: nat, count: nat): (r: Cursor)
    requires off <= |buf|
    ensures off <= r.offset <= |buf|
    ensures count <= r.count
    ensures 96 * (r.count - count) <= r.offset - off
    decreases |buf| - off
  {
    if off + 4 > |buf| then Cursor(off, count)
    else match Examine(buf, off)
      case Resync => Scan(buf, off + 1, count)
      case Incomplete => Cursor(off, count)
      case Frame(size, counted) => Scan(buf, off + size, if counted then count + 1 else count)
  }

  /** A pass steps one byte past a candidate that is not a frame. */
  lemma ScanResync(buf: Bytes, off: nat, count: nat)
    requires off + 4 <= |buf| && Examine(buf, off).Resync?
    ensures Scan(buf, off, count) == Scan(buf, off + 1, count)
  {
  }

  /** A pass at a complete frame moves past it, counting it unless it is a VBR summary. */
  lemma ScanOverFrame(buf: Bytes, off: nat, count: nat)
    requires off + 4 <= |buf| && Examine(buf, off).Frame?
    ensures var c := Examine(buf, off);
      Scan(buf, off, count) == Scan(buf, off + c.size, if c.counted then count + 1 else count)
  {
  }

  /** A pass started where it can go no further ends there. */
  lemma ScanStops(buf: Bytes, off: nat, count: nat)
    requires off <= |buf| && StopsAt(buf, off)
    ensures Scan(buf, off, count) == Cursor(off, count)
  {
  }

  /** A pass ends where it can go no further: fewer than 4 bytes remain or the frame there is not fully buffered. */
  lemma {:induction false} ScanEndsStopped(buf: Bytes, off: nat, count: nat)
    requires off <= |buf|
    ensures StopsAt(buf, Scan(buf, off, count).offset)
    decreases |buf| - off
  {
    if !StopsAt(buf, off) {
      var c := Examine(buf, off);
      if c.Resync? {
        ScanResync(buf, off, count);
        ScanEndsStopped(buf, off + 1, count);
      } else {
        ScanOverFrame(buf, off, count);
        ScanEndsStopped(buf, off + c.size, if c.counted then count + 1 else count);
      }
    }
  }

  /** The state carried from one chunk to the next. */
  datatype ScanState = ScanState(leftover: Bytes, id3Decided: bool, count: nat)

  const Initial: ScanState := ScanState([], false, 0)

  /** Dropping the first `k` bytes of a buffer shifts every candidate by `k`. */
  lemma ExamineShift(buf: Bytes, k: nat, off: nat)
    requires k + off + 4 <= |buf|
    ensures Examine(buf[k..], off) == Examine(buf, k + off)
  {
    var b := buf[k..];
    assert b[off] == buf[k + off] && b[off + 1] == buf[k + off + 1] && b[off + 2] == buf[k + off + 2];
    if off + 40 <= |b| {
      assert b[off + 36..off + 40] == buf[k + off + 36..k + off + 40];
      assert b[off + 32..off + 36] == buf[k + off + 32..k + off + 36];
    }
  }

  /** The leftover a pass keeps is one no pass can advance from. */
  predicate Settled(leftover: Bytes)
  {
    StopsAt(leftover, 0)
  }

  /**
    One chunk: append it to the leftover, take the ID3 decision if it is still
    open, run a pass, and keep the unconsumed tail. The decision, once taken,
    stays taken; nothing is lost or reordered; the count never goes down.
   */
  function Step(s: ScanState, chunk: Bytes): (r: ScanState)
    ensures r.id3Decided <==> s.id3Decided || DecideId3(s.leftover + chunk).Decided?
    ensures s.count <= r.count
    ensures IsSuffix(r.leftover, s.leftover + chunk)
    ensures 96 * (r.count - s.count) <= |s.leftover| + |chunk| - |r.leftover|
  {
    var buf := s.leftover + chunk;
    var d := if s.id3Decided then Decided(0) else DecideId3(buf);
    var start := if d.Decided? then d.start else 0;
    var cur := Scan(buf, start, s.count);
    ScanState(buf[cur.offset..], d.Decided?, cur.count)
  }

  /** The tail a pass leaves is one where it could go no further. */
  lemma TailOfPassIsSettled(buf: Bytes, start: nat, count: nat)
    requires start <= |buf|
    ensures Settled(buf[Scan(buf, start, count).offset..])
  {
    var cur := Scan(buf, start, count);
    ScanEndsStopped(buf, start, count);
    if |buf| - cur.offset >= 4 {
      ExamineShift(buf, cur.offset, 0);
    }
  }

  /** No pass can advance in the leftover a step keeps. */
  lemma StepSettles(s: ScanState, chunk: Bytes)
    ensures Settled(Step(s, chunk).leftover)
  {
    var buf := s.leftover + chunk;
    var d := if s.id3Decided then Decided(0) else DecideId3(buf);
    TailOfPassIsSettled(buf, if d.Decided? then d.start else 0, s.count);
  }

  /** The state after a sequence of chunks, folding `Step` from the first chunk to the last. */
  function Run(chunks: seq<Bytes>): ScanState
  {
    if |chunks| == 0 then Initial else Step(Run(chunks[..|chunks| - 1]), chunks[|chunks| - 1])
  }

  /**
    After any sequence of chunks the leftover is the unconsumed tail of all
    bytes received, in order: nothing is lost or reordered. Every frame
    counted consumed at least 96 of the other bytes, and no pass could go
    further in the leftover.
   */
  lemma {:induction false} RunKeepsTail(chunks: seq<Bytes>)
    ensures IsSuffix(Run(chunks).leftover, Flatten(chunks))
    ensures 96 * Run(chunks).count <= |Flatten(chunks)| - |Run(chunks).leftover|
    ensures |chunks| > 0 ==> Settled(Run(chunks).leftover)
    decreases |chunks|
  {
    if |chunks| > 0 {
      var init := chunks[..|chunks| - 1];
      var chunk := chunks[|chunks| - 1];
      var prev := Run(init);
      RunKeepsTail(init);
      SuffixThenAppend(prev.leftover, Flatten(init), chunk);
      StepSettles(prev, chunk);
      var s := Step(prev, chunk);
      SuffixTransitive(s.leftover, prev.leftover + chunk, Flatten(init) + chunk);
    }
  }

  /**
    The ID3 gate at the head of each chunk's pass: while no decision has been
    made and at least 10 bytes are buffered, skip a fully buffered tag or
    decide that there is none. Returns the offset the pass starts at.
   */
  method SkipId3(buffer: Bytes, skippedId3: bool) returns (offset: nat, decided: bool)
    ensures var d := if skippedId3 then Decided(0) else DecideId3(buffer);
      decided == d.Decided? && offset == (if d.Decided? then d.start else 0)
  {
    offset, decided := 0, skippedId3;
    if !skippedId3 && |buffer| >= 10 {
      if IsId3Header(buffer) {
        var totalId3Size := 10 + SynchsafeValue(buffer[6], buffer[7], buffer[8], buffer[9]);
        if |buffer| >= totalId3Size {
          offset := totalId3Size;
          decided := true;
        }
      } else {
        decided := true;
      }
    }
  }

  /** The three probes of the source, in order, decide exactly `IsMetadataFrame`. */
  lemma ProbesDecideMetadata(buf: Bytes, off: nat, x: bool, i: bool, v: bool)
    requires x == (off + 40 <= |buf| && TagAt(buf, off + 36, Xing))
    requires i == (!x && off + 40 <= |buf| && TagAt(buf, off + 36, Info))
    requires v == (!x && !i && off + 36 <= |buf| && TagAt(buf, off + 32, Vbri))
    ensures (x || i || v) == IsMetadataFrame(buf, off)
  {
  }

  /** The table lookups the loop performs decide validity and give the frame size. */
  lemma DecodeFromTables(b2: Byte)
    ensures var bitrate, sampleRate := BitrateTable[BitrateIndex(b2)], SampleRateTable[SampleRateIndex(b2)];
      && (Decode(b2).Valid? <==> bitrate != 0 && sampleRate != 0)
      && (Decode(b2).Valid? ==> FrameSizeOf(b2) == 144 * bitrate * 1000 / sampleRate + Padding(b2))
  {
  }

  /*
    The next three lemmas restate `ScanResync`, `ScanOverFrame` and `ScanStops`
    in terms of the header fields that `ScanPass` tests, since its loop
    branches on those fields rather than on `Examine`.
   */

  /** A pass at a header whose sync or indices fail steps one byte. */
  lemma ScanAtInvalid(buf: Bytes, off: nat, count: nat)
    requires off + 4 <= |buf|
    requires !IsFrameSync(buf[off], buf[off + 1]) || Decode(buf[off + 2]).Invalid?
    ensures Scan(buf, off, count) == Scan(buf, off + 1, count)
  {
    ExamineSpec(buf, off);
    ScanResync(buf, off, count);
  }

  /** A pass at a valid header whose frame fits moves past it, counting it unless it is a VBR summary. */
  lemma ScanAtFrame(buf: Bytes, off: nat, count: nat, size: nat, meta: bool)
    requires off + 4 <= |buf| && IsFrameSync(buf[off], buf[off + 1]) && Decode(buf[off + 2]).Valid?
    requires size == FrameSizeOf(buf[off + 2]) && off + size <= |buf|
    requires meta == IsMetadataFrame(buf, off)
    ensures Scan(buf, off, count) == Scan(buf, off + size, if meta then count else count + 1)
  {
  }

  /** A pass at a valid header whose frame does not fit stops there. */
  lemma ScanAtIncomplete(buf: Bytes, off: nat, count: nat)
    requires off + 4 <= |buf| && IsFrameSync(buf[off], buf[off + 1]) && Decode(buf[off + 2]).Valid?
    requires off + FrameSizeOf(buf[off + 2]) > |buf|
    ensures Scan(buf, off, count) == Cursor(off, count)
  {
    ExamineSpec(buf, off);
    ScanStops(buf, off, count);
  }

  /** The inner loop of one pass, as the source writes it; it ends where `Scan` ends. */
  method ScanPass(buffer: Bytes, start: nat, count: nat) returns (offset: nat, frameCount: nat)
    requires start <= |buffer|
    ensures Cursor(offset, frameCount) == Scan(buffer, start, count)
  {
    offset, frameCount := start, count;
    while offset + 4 <= |buffer|
      invariant offset <= |buffer|
      invariant Scan(buffer, offset, frameCount) == Scan(buffer, start, count)
      decreases |buffer| - offset
    {
      if !IsFrameSync(buffer[offset], buffer[offset + 1]) {
        ScanAtInvalid(buffer, offset, frameCount);
        offset := offset + 1;
        continue;
      }
      var b2 := buffer[offset + 2];
      var bitrate := BitrateTable[BitrateIndex(b2)];
      var sampleRate := SampleRateTable[SampleRateIndex(b2)];
      DecodeFromTables(b2);
      if bitrate == 0 || sampleRate == 0 {
        ScanAtInvalid(buffer, offset, frameCount);
        offset := offset + 1;
        continue;
      }
      var frameSize := 144 * bitrate * 1000 / sampleRate + Padding(b2);
      if offset + frameSize <= |buffer| {
        var isMetadataFrame := false;
        ghost var x, i, v := false, false, false;
        if offset + 40 <= |buffer| && TagAt(buffer, offset + 36, Xing) {
          isMetadataFrame := true;
          x := true;
        }
        if !isMetadataFrame && offset + 40 <= |buffer| && TagAt(buffer, offset + 36, Info) {
          isMetadataFrame := true;
          i := true;
        }
        if !isMetadataFrame && offset + 36 <= |buffer| && TagAt(buffer, offset + 32, Vbri) {
          isMetadataFrame := true;
          v := true;
        }
        ProbesDecideMetadata(buffer, offset, x, i, v);
        ScanAtFrame(buffer, offset, frameCount, frameSize, isMetadataFrame);
        if !isMetadataFrame {
          frameCount := frameCount + 1;
        }
        offset := offset + frameSize;
      } else {
        ScanAtIncomplete(buffer, offset, frameCount);
        break;
      }
    }
  }

  /**
    The counter as the source writes it: a loop over the chunks that appends,
    passes the ID3 gate, runs the inner scan loop and keeps the tail. It
    computes the count of the fold `Run`.
   */
  method CountMp3Frames(stream: seq<Bytes>) returns (frameCount: nat)
    ensures frameCount == Run(stream).count
  {
    frameCount := 0;
    var buffer: Bytes := [];
    var skippedId3 := false;
    for i := 0 to |stream|
      invariant Run(stream[..i]) == ScanState(buffer, skippedId3, frameCount)
    {
      assert stream[..i + 1][..i] == stream[..i];
      ghost var before := ScanState(buffer, skippedId3, frameCount);
      buffer := buffer + stream[i];
      var offset;
      offset, skippedId3 := SkipId3(buffer, skippedId3);
      offset, frameCount := ScanPass(buffer, offset, frameCount);
      buffer := buffer[offset..];
      assert Step(before, stream[i]) == ScanState(buffer, skippedId3, frameCount);
    }
    assert stream[..|stream|] == stream;
  }
}

=== FILE: mp3_properties.dfy ===
/**
  Properties of the streaming counter across chunks: how a pass behaves when
  the buffer grows or loses a prefix, when the chunking of a stream does not
  matter, and the counts of the degenerate and single-frame streams.
 */
module Mp3Properties {
  import opened Stream
  import opened FrameHeader
  import opened Id3Tag
  import opened VbrTag
  import opened Mp3

  /** A candidate other than an unfinished frame reads only bytes already buffered: more bytes do not change it. */
  lemma ExamineExtend(buf: Bytes, more: Bytes, off: nat)
    requires off + 4 <= |buf|
    requires !Examine(buf, off).Incomplete?
    ensures Examine(buf + more, off) == Examine(buf, off)
  {
    var b := buf + more;
    assert b[off] == buf[off] && b[off + 1] == buf[off + 1] && b[off + 2] == buf[off + 2];
    if Examine(buf, off).Frame? {
      assert b[off + 36..off + 40] == buf[off + 36..off + 40];
      assert b[off + 32..off + 36] == buf[off + 32..off + 36];
    }
  }

  /**
    Running a pass on a longer buffer is running it on the shorter one and then
    continuing from where that stopped: the stop of a pass is the only place a
    later pass over more bytes resumes.
   */
  lemma {:induction false} ScanExtend(buf: Bytes, more: Bytes, off: nat, count: nat)
    requires off <= |buf|
    ensures var r := Scan(buf, off, count);
      Scan(buf + more, off, count) == Scan(buf + more, r.offset, r.count)
    decreases |buf| - off
  {
    if StopsAt(buf, off) {
      ScanStops(buf, off, count);
    } else {
      var c := Examine(buf, off);
      ExamineExtend(buf, more, off);
      var next := if c.Resync? then off + 1 else off + c.size;
      var n := if c.Frame? && c.counted then count + 1 else count;
      assert Scan(buf, off, count) == Scan(buf, next, n) && Scan(buf + more, off, count) == Scan(buf + more, next, n) by {
        if c.Resync? {
          ScanResync(buf, off, count);
          ScanResync(buf + more, off, count);
        } else {
          ScanOverFrame(buf, off, count);
          ScanOverFrame(buf + more, off, count);
        }
      }
      ScanExtend(buf, more, next, n);
    }
  }

  /** A pass over a buffer with its first `k` bytes dropped is the same pass, shifted by `k`. */
  lemma {:induction false} ScanShift(buf: Bytes, k: nat, off: nat, count: nat)
    requires k + off <= |buf|
    ensures var r := Scan(buf, k + off, count);
      Scan(buf[k..], off, count) == Cursor(r.offset - k, r.count)
    decreases |buf| - k - off
  {
    if k + off + 4 <= |buf| {
      ExamineShift(buf, k, off);
      match Examine(buf, k + off)
      case Resync =>
        ScanShift(buf, k, off + 1, count);
      case Incomplete =>
      case Frame(size, counted) =>
        ScanShift(buf, k, off + size, if counted then count + 1 else count);
    }
  }

  /** The frames a pass adds do not depend on how many were counted before it. */
  lemma {:induction false} ScanCountIsAdditive(buf: Bytes, off: nat, count: nat)
    requires off <= |buf|
    ensures var r := Scan(buf, off, 0);
      Scan(buf, off, count) == Cursor(r.offset, count + r.count)
    decreases |buf| - off
  {
    if StopsAt(buf, off) {
      ScanStops(buf, off, count);
      ScanStops(buf, off, 0);
    } else {
      var c := Examine(buf, off);
      var next := if c.Resync? then off + 1 else off + c.size;
      var b := if c.Frame? && c.counted then 1 else 0;
      var r := Scan(buf, next, 0);
      assert Scan(buf, off, count) == Scan(buf, next, count + b) && Scan(buf, off, 0) == Scan(buf, next, b) by {
        if c.Resync? {
          ScanResync(buf, off, count);
          ScanResync(buf, off, 0);
        } else {
          ScanOverFrame(buf, off, count);
          ScanOverFrame(buf, off, 0);
        }
      }
      ScanCountIsAdditive(buf, next, count + b);
      ScanCountIsAdditive(buf, next, b);
    }
  }

  /** Two buffers that agree from `next` on give passes from `next` that end at the same offset and add the same number of frames. */
  lemma SameTailSamePass(buf: Bytes, buf': Bytes, next: nat, c: nat, c': nat)
    requires next <= |buf| && |buf'| == |buf| && buf'[next..] == buf[next..]
    ensures Scan(buf', next, c').offset == Scan(buf, next, c).offset
    ensures Scan(buf', next, c').count - c' == Scan(buf, next, c).count - c
  {
    var tail := buf[next..];
    ScanShift(buf, next, 0, c);
    ScanShift(buf', next, 0, c');
    ScanCountIsAdditive(tail, 0, c);
    ScanCountIsAdditive(tail, 0, c');
  }

  /** Two buffers of one length with the same first three header bytes at `off` hold frames of the same size there. */
  lemma ExamineSameHeader(buf: Bytes, buf': Bytes, off: nat)
    requires off + 4 <= |buf| && |buf'| == |buf|
    requires buf'[off] == buf[off] && buf'[off + 1] == buf[off + 1] && buf'[off + 2] == buf[off + 2]
    requires Examine(buf, off).Frame?
    ensures Examine(buf', off).Frame? && Examine(buf', off).size == Examine(buf, off).size
  {
  }

  /**
    Two buffers that agree on a complete frame's header and on everything
    after that frame give passes from it that end at the same offset, with
    counts differing at most by that frame.
   */
  lemma SameHeaderSameTail(buf: Bytes, buf': Bytes, off: nat, count: nat)
    requires off + 4 <= |buf| && |buf'| == |buf|
    requires buf'[off] == buf[off] && buf'[off + 1] == buf[off + 1] && buf'[off + 2] == buf[off + 2]
    requires Examine(buf, off).Frame?
    requires buf'[off + Examine(buf, off).size..] == buf[off + Examine(buf, off).size..]
    ensures Examine(buf', off).Frame? && Examine(buf', off).size == Examine(buf, off).size
    ensures Scan(buf', off, count).offset == Scan(buf, off, count).offset
    ensures -1 <= Scan(buf', off, count).count - Scan(buf, off, count).count <= 1
  {
    ExamineSameHeader(buf, buf', off);
    var c := Examine(buf, off);
    var c' := Examine(buf', off);
    var next := off + c.size;
    var n := if c.counted then count + 1 else count;
    var n' := if c'.counted then count + 1 else count;
    assert Scan(buf, off, count) == Scan(buf, next, n) by {
      ScanOverFrame(buf, off, count);
    }
    assert Scan(buf', off, count) == Scan(buf', next, n') by {
      ScanOverFrame(buf', off, count);
    }
    SameTailSamePass(buf, buf', next, n, n');
  }

  /**
    Rewriting the eight bytes a complete frame's classification reads (frame
    offsets 32 to 39) never moves where the pass goes: the frame keeps its
    size, the pass ends at the same offset, and the count differs by at most
    the one frame whose classification changed.
   */
  lemma {:induction false} TagBytesDecideOnlyCounting(buf: Bytes, buf': Bytes, off: nat, count: nat)
    requires off + 4 <= |buf| && |buf'| == |buf|
    requires Examine(buf, off).Frame?
    requires forall i | 0 <= i < |buf| && !(off + 32 <= i < off + 40) :: buf'[i] == buf[i]
    ensures Examine(buf', off).Frame? && Examine(buf', off).size == Examine(buf, off).size
    ensures Scan(buf', off, count).offset == Scan(buf, off, count).offset
    ensures -1 <= Scan(buf', off, count).count - Scan(buf, off, count).count <= 1
  {
    var next := off + Examine(buf, off).size;
    assert buf'[off] == buf[off] && buf'[off + 1] == buf[off + 1] && buf'[off + 2] == buf[off + 2];
    assert buf'[next..] == buf[next..] by {
      assert forall i | next <= i < |buf| :: buf'[i] == buf[i];
    }
    SameHeaderSameTail(buf, buf', off, count);
  }

  /** A decided state holding the tail of one pass over `p` steps, on a new chunk, to the tail of one pass over `p + chunk`. */
  lemma StepContinuesPass(p: Bytes, chunk: Bytes, start: nat)
    requires start <= |p|
    ensures var prev := Scan(p, start, 0);
      var f := p + chunk;
      var cur := Scan(f, start, 0);
      Step(ScanState(p[prev.offset..], true, prev.count), chunk) == ScanState(f[cur.offset..], true, cur.count)
  {
    var prev := Scan(p, start, 0);
    var q := prev.offset;
    var f := p + chunk;
    var buf := p[q..] + chunk;
    assert buf == f[q..];
    ScanExtend(p, chunk, start, 0);
    var cur := Scan(f, start, 0);
    assert cur == Scan(f, q, prev.count);
    ScanShift(f, q, 0, prev.count);
    assert Scan(buf, 0, prev.count) == Cursor(cur.offset - q, cur.count);
    assert buf[cur.offset - q..] == f[cur.offset..];
  }

  /**
    Once the first chunk settles the ID3 question, the state after any number
    of chunks is that of one pass over all their bytes from the decided start.
   */
  lemma {:induction false} RunIsOnePass(chunks: seq<Bytes>)
    requires |chunks| > 0 && DecideId3(chunks[0]).Decided?
    ensures DecideId3(chunks[0]).start <= |Flatten(chunks)|
    ensures var f := Flatten(chunks);
      var cur := Scan(f, DecideId3(chunks[0]).start, 0);
      Run(chunks) == ScanState(f[cur.offset..], true, cur.count)
    decreases |chunks|
  {
    FlattenStartsWithFirst(chunks);
    var start := DecideId3(chunks[0]).start;
    var init := chunks[..|chunks| - 1];
    var chunk := chunks[|chunks| - 1];
    if |chunks| == 1 {
      assert init == [];
      assert Flatten(chunks) == chunk;
      assert Initial.leftover + chunk == chunk;
    } else {
      assert init[0] == chunks[0];
      RunIsOnePass(init);
      StepContinuesPass(Flatten(init), chunk, start);
    }
  }

  /**
    Chunk-boundary invariance: when the first chunk already settles the ID3
    question (it has at least 10 bytes and is not the start of a tag, or it
    holds the whole tag), splitting the stream anywhere after it, even inside
    a frame header, gives the state of delivering it as one chunk.
   */
  lemma {:induction false} ChunkBoundaryInvariance(chunks: seq<Bytes>)
    requires |chunks| > 0 && DecideId3(chunks[0]).Decided?
    ensures Run(chunks) == Run([Flatten(chunks)])
  {
    var f := Flatten(chunks);
    FlattenStartsWithFirst(chunks);
    DecisionSurvivesMoreBytes(chunks[0], f);
    RunIsOnePass(chunks);
    RunIsOnePass([f]);
    assert Flatten([f]) == f;
  }

  /** A stream whose first bytes are a frame header: a frame sync and a valid third byte. */
  predicate OpensWithHeader(f: Bytes)
  {
    |f| >= 4 && IsFrameSync(f[0], f[1]) && Decode(f[2]).Valid?
  }

  /** A pass over a leading part of such a stream shorter than any frame stops at once. */
  lemma HeaderPrefixStops(p: Bytes, f: Bytes, count: nat)
    requires OpensWithHeader(f) && |p| <= |f| && f[..|p|] == p && |p| < 96
    ensures Scan(p, 0, count) == Cursor(0, count)
  {
    if |p| >= 4 {
      assert p[0] == f[0] && p[1] == f[1] && p[2] == f[2];
      assert Examine(p, 0) == Incomplete;
    }
    ScanStops(p, 0, count);
  }

  /**
    The state after leading chunks of a stream that opens with a frame header.
    While fewer than 10 bytes have arrived they are all held, undecided, with
    nothing counted. From 10 bytes on, the decision is taken at offset 0, and
    the state is the tail of one pass over everything received.
   */
  lemma {:induction false} HeaderRunIsOnePass(chunks: seq<Bytes>, f: Bytes)
    requires OpensWithHeader(f)
    requires |Flatten(chunks)| <= |f| && f[..|Flatten(chunks)|] == Flatten(chunks)
    ensures var p := Flatten(chunks);
      if |p| < HeaderSize then Run(chunks) == ScanState(p, false, 0)
      else var cur := Scan(p, 0, 0); Run(chunks) == ScanState(p[cur.offset..], true, cur.count)
    decreases |chunks|
  {
    if |chunks| > 0 {
      var init, c := chunks[..|chunks| - 1], chunks[|chunks| - 1];
      var q := Flatten(init);
      var p := q + c;
      assert Flatten(chunks) == p;
      assert f[..|q|] == q by {
        assert p[..|q|] == q;
        assert f[..|p|][..|q|] == f[..|q|];
      }
      HeaderRunIsOnePass(init, f);
      if |q| >= HeaderSize {
        assert DecideId3(q) == Decided(0) by { assert q[0] == f[0]; }
        StepContinuesPass(q, c, 0);
      } else if |p| < HeaderSize {
        HeaderPrefixStops(p, f, 0);
        assert p[0..] == p;
      } else {
        assert p[0] == f[0];
        assert DecideId3(p) == Decided(0);
      }
    }
  }

  /**
    Chunk-boundary invariance for a stream that opens with a frame header:
    however it is split, even inside that first header or before the tenth
    byte, the state is that of delivering it as one chunk.
   */
  lemma {:induction false} HeaderStartChunkBoundaryInvariance(chunks: seq<Bytes>)
    requires OpensWithHeader(Flatten(chunks))
    ensures Run(chunks) == Run([Flatten(chunks)])
  {
    var f := Flatten(chunks);
    HeaderRunIsOnePass(chunks, f);
    assert Flatten([f]) == f;
    HeaderRunIsOnePass([f], f);
  }

  /** Appending one chunk to a stream is one more step. */
  lemma RunSnoc(chunks: seq<Bytes>, chunk: Bytes)
    ensures Run(chunks + [chunk]) == Step(Run(chunks), chunk)
  {
    assert (chunks + [chunk])[..|chunks|] == chunks;
  }

  /** Later chunks never lower the count and never reopen the ID3 decision. */
  lemma {:induction false} RunMonotone(chunks: seq<Bytes>, more: seq<Bytes>)
    ensures Run(chunks).count <= Run(chunks + more).count
    ensures Run(chunks).id3Decided ==> Run(chunks + more).id3Decided
    decreases |more|
  {
    if |more| == 0 {
      assert chunks + more == chunks;
    } else {
      var fewer, last := more[..|more| - 1], more[|more| - 1];
      assert chunks + more == (chunks + fewer) + [last];
      RunMonotone(chunks, fewer);
      RunSnoc(chunks + fewer, last);
    }
  }

  /** An empty chunk after the ID3 decision changes nothing. */
  lemma EmptyChunkAfterDecision(s: ScanState)
    requires s.id3Decided && Settled(s.leftover)
    ensures Step(s, []) == s
  {
    assert s.leftover + [] == s.leftover;
    assert s.leftover[0..] == s.leftover;
  }

  /**
    A state whose leftover an empty chunk would scan from offset 0: the ID3
    question is settled, or the leftover leaves it pending, or it decides it
    with nothing to skip.
   */
  predicate OpensAtZero(s: ScanState)
  {
    s.id3Decided || DecideId3(s.leftover).Pending? || DecideId3(s.leftover) == Decided(0)
  }

  /**
    Every step leaves such a state. With the question still open, the pass
    either consumed nothing, so the buffer still leaves it pending, or it
    stopped at a frame sync or within 3 bytes of the end, so the leftover
    cannot open with a whole "ID3" tag.
   */
  lemma {:induction false} StepOpensAtZero(s: ScanState, chunk: Bytes)
    ensures OpensAtZero(Step(s, chunk))
  {
    var r := Step(s, chunk);
    if !r.id3Decided {
      var buf := s.leftover + chunk;
      var cur := Scan(buf, 0, s.count);
      assert r.leftover == buf[cur.offset..];
      if cur.offset > 0 && cur.offset + 4 <= |buf| {
        ScanEndsStopped(buf, 0, s.count);
        ExamineSpec(buf, cur.offset);
        assert r.leftover[0] == 0xFF;
      }
    }
  }

  /**
    On a settled state that opens at zero, an empty chunk keeps the count and
    the leftover; it settles the ID3 question exactly when the leftover
    already decides it.
   */
  lemma {:induction false} EmptyStepKeepsCountAndLeftover(s: ScanState)
    requires Settled(s.leftover) && OpensAtZero(s)
    ensures Step(s, []).count == s.count && Step(s, []).leftover == s.leftover
    ensures Step(s, []).id3Decided <==> s.id3Decided || DecideId3(s.leftover).Decided?
  {
    assert s.leftover + [] == s.leftover;
    ScanStops(s.leftover, 0, s.count);
    assert s.leftover[0..] == s.leftover;
  }

  /**
    An empty chunk, at any point of any stream, keeps the count and the
    leftover. It may settle the ID3 question, which it does exactly when the
    leftover already decides it.
   */
  lemma {:induction false} EmptyChunkKeepsCountAndLeftover(chunks: seq<Bytes>)
    ensures Run(chunks + [[]]).count == Run(chunks).count
    ensures Run(chunks + [[]]).leftover == Run(chunks).leftover
    ensures Run(chunks + [[]]).id3Decided <==> Run(chunks).id3Decided || DecideId3(Run(chunks).leftover).Decided?
  {
    RunSnoc(chunks, []);
    if |chunks| > 0 {
      RunKeepsTail(chunks);
      StepOpensAtZero(Run(chunks[..|chunks| - 1]), chunks[|chunks| - 1]);
    }
    EmptyStepKeepsCountAndLeftover(Run(chunks));
  }

  /** The next chunk cannot tell whether an empty chunk came before it. */
  lemma {:induction false} EmptyStepIsInvisible(s: ScanState, chunk: Bytes)
    requires Settled(s.leftover) && OpensAtZero(s)
    ensures Step(Step(s, []), chunk) == Step(s, chunk)
  {
    var s' := Step(s, []);
    EmptyStepKeepsCountAndLeftover(s);
    if s'.id3Decided != s.id3Decided {
      var buf := s.leftover + chunk;
      assert buf[..|s.leftover|] == s.leftover;
      DecisionSurvivesMoreBytes(s.leftover, buf);
    } else {
      assert s' == s;
    }
  }

  /** An empty chunk followed by more chunks changes nothing: the state after them is the state without it. */
  lemma {:induction false} EmptyChunkIsInvisible(chunks: seq<Bytes>, more: seq<Bytes>)
    requires |more| > 0
    ensures Run(chunks + [[]] + more) == Run(chunks + more)
    decreases |more|
  {
    var fewer, last := more[..|more| - 1], more[|more| - 1];
    assert chunks + [[]] + more == (chunks + [[]] + fewer) + [last];
    assert chunks + more == (chunks + fewer) + [last];
    RunSnoc(chunks + [[]] + fewer, last);
    RunSnoc(chunks + fewer, last);
    if |fewer| == 0 {
      assert chunks + [[]] + fewer == chunks + [[]];
      assert chunks + fewer == chunks;
      RunSnoc(chunks, []);
      if |chunks| > 0 {
        RunKeepsTail(chunks);
        StepOpensAtZero(Run(chunks[..|chunks| - 1]), chunks[|chunks| - 1]);
      }
      EmptyStepIsInvisible(Run(chunks), last);
    } else {
      EmptyChunkIsInvisible(chunks, fewer);
    }
  }

  /** No two adjacent bytes form a frame sync. */
  predicate NoFrameSync(b: Bytes)
  {
    forall i | 0 <= i < |b| - 1 :: !IsFrameSync(b[i], b[i + 1])
  }

  lemma {:induction false} ScanWithoutSync(buf: Bytes, off: nat, count: nat)
    requires off <= |buf| && NoFrameSync(buf)
    ensures Scan(buf, off, count) == Cursor(if off + 4 <= |buf| then |buf| - 3 else off, count)
    decreases |buf| - off
  {
    if off + 4 <= |buf| {
      ScanWithoutSync(buf, off + 1, count);
    }
  }

  /** Any stretch of a buffer without a frame sync has none either. */
  lemma NoSyncSlice(t: Bytes, i: nat, j: nat)
    requires i <= j <= |t| && NoFrameSync(t)
    ensures NoFrameSync(t[i..j])
  {
    var s := t[i..j];
    forall k | 0 <= k < |s| - 1
      ensures !IsFrameSync(s[k], s[k + 1])
    {
      assert s[k] == t[i + k] && s[k + 1] == t[i + k + 1];
    }
  }

  /** A chunk whose buffer holds no frame sync adds no frame. */
  lemma StepWithoutSync(s: ScanState, chunk: Bytes)
    requires NoFrameSync(s.leftover + chunk)
    ensures Step(s, chunk).count == s.count
  {
    var buf := s.leftover + chunk;
    var d := if s.id3Decided then Decided(0) else DecideId3(buf);
    ScanWithoutSync(buf, if d.Decided? then d.start else 0, s.count);
  }

  /** A stream in which no byte pair forms a frame sync counts no frame, however it is chunked. */
  lemma {:induction false} NoSyncCountsZero(chunks: seq<Bytes>)
    requires NoFrameSync(Flatten(chunks))
    ensures Run(chunks).count == 0
    decreases |chunks|
  {
    if |chunks| > 0 {
      var init := chunks[..|chunks| - 1];
      var chunk := chunks[|chunks| - 1];
      var p := Flatten(init);
      var all := Flatten(chunks);
      assert all == p + chunk;
      assert all[..|p|] == p;
      NoSyncSlice(all, 0, |p|);
      NoSyncCountsZero(init);
      var prev := Run(init);
      RunKeepsTail(init);
      SuffixThenAppend(prev.leftover, p, chunk);
      var buf := prev.leftover + chunk;
      assert buf == all[|all| - |buf|..];
      NoSyncSlice(all, |all| - |buf|, |all|);
      StepWithoutSync(prev, chunk);
    }
  }

  /** The upload "not a valid mp3 file at all", in ASCII. */
  const NotAnMp3: Bytes := [
    0x6E, 0x6F, 0x74, 0x20, 0x61, 0x20, 0x76, 0x61, 0x6C, 0x69, 0x64, 0x20, 0x6D, 0x70,
    0x33, 0x20, 0x66, 0x69, 0x6C, 0x65, 0x20, 0x61, 0x74, 0x20, 0x61, 0x6C, 0x6C]

  /** ASCII text holds no 0xFF byte, so it counts zero frames however it is split into chunks. */
  lemma NotAnMp3CountsZero(chunks: seq<Bytes>)
    requires Flatten(chunks) == NotAnMp3
    ensures Run(chunks).count == 0
  {
    assert forall i | 0 <= i < |NotAnMp3| :: NotAnMp3[i] < 0x80;
    NoSyncCountsZero(chunks);
  }

  /** The header of a 128 kbit/s, 44100 Hz frame without padding: 417 bytes long. */
  const Header128k: Bytes := [0xFF, 0xFB, 0x90, 0x00]

  /** The third byte 0x90 announces 128 kbit/s at 44100 Hz without padding: a 417-byte frame. */
  lemma Header128kSize()
    ensures Decode(0x90) == Valid(Header(128, 44100, 0))
    ensures FrameSizeOf(0x90) == 417
  {
    assert BitrateIndex(0x90) == 9 && SampleRateIndex(0x90) == 0 && Padding(0x90) == 0;
  }

  /** A one-chunk stream is one step from the initial state. */
  lemma RunOfOneChunk(chunk: Bytes)
    ensures Run([chunk]) == Step(Initial, chunk)
  {
    var none: seq<Bytes> := [];
    assert [chunk][..0] == none;
  }

  /** A 417-byte buffer opening with `Header128k` is one complete frame, counted unless it is a VBR summary. */
  lemma Frame128kExamine(frame: Bytes)
    requires |frame| == 417 && frame[..4] == Header128k
    ensures Examine(frame, 0) == Frame(417, !IsMetadataFrame(frame, 0))
  {
    assert frame[0] == 0xFF && frame[1] == 0xFB && frame[2] == 0x90;
    Header128kSize();
  }

  /** A first chunk that settles the ID3 question with nothing to skip is scanned from its start. */
  lemma {:induction false} FirstStepScansFromStart(chunk: Bytes)
    requires DecideId3(chunk) == Decided(0)
    ensures Step(Initial, chunk).count == Scan(chunk, 0, 0).count
  {
    assert Initial.leftover + chunk == chunk;
  }

  /**
    One such frame delivered as one chunk counts 1, unless it carries "Xing"
    or "Info" at byte 36 or "VBRI" at byte 32, when it counts 0.
   */
  lemma SingleFrameCount(payload: Bytes)
    requires |payload| == 413
    ensures var frame := Header128k + payload;
      Run([frame]).count == if frame[36..40] in {Xing, Info} || frame[32..36] == Vbri then 0 else 1
  {
    var frame := Header128k + payload;
    assert frame[..4] == Header128k;
    Frame128kExamine(frame);
    ScanOverFrame(frame, 0, 0);
    assert DecideId3(frame) == Decided(0) by {
      assert frame[0] == 0xFF;
    }
    FirstStepScansFromStart(frame);
    RunOfOneChunk(frame);
    ClassificationOfCompleteFrame(frame, 0, 417);
  }
}

=== FILE: stream.dfy ===
/**
  The input both frame counters consume: an ordered, finite sequence of byte
  chunks, and the cursor a scan pass keeps while walking one buffer.
 */
module Stream {

  type Byte = bv8
  type Bytes = seq<Byte>

  /** The bytes of a chunk sequence in delivery order. */
  function Flatten(chunks: seq<Bytes>): Bytes
  {
    if |chunks| == 0 then [] else Flatten(chunks[..|chunks| - 1]) + chunks[|chunks| - 1]
  }

  /** True when `s` is a (possibly empty) trailing part of `t`. */
  predicate IsSuffix(s: Bytes, t: Bytes)
  {
    |s| <= |t| && s == t[|t| - |s|..]
  }

  /** Where a scan pass stopped inside its buffer and the frame count it reached. */
  datatype Cursor = Cursor(offset: nat, count: nat)

  /** The first chunk is the leading part of the flattened stream. */
  lemma {:induction false} FlattenStartsWithFirst(chunks: seq<Bytes>)
    requires |chunks| > 0
    ensures |chunks[0]| <= |Flatten(chunks)|
    ensures Flatten(chunks)[..|chunks[0]|] == chunks[0]
    decreases |chunks|
  {
    if |chunks| > 1 {
      var init := chunks[..|chunks| - 1];
      FlattenStartsWithFirst(init);
      assert init[0] == chunks[0];
    }
  }

  /** A suffix of a buffer, followed by more bytes, is a suffix of the longer buffer. */
  lemma SuffixThenAppend(s: Bytes, t: Bytes, c: Bytes)
    requires IsSuffix(s, t)
    ensures IsSuffix(s + c, t + c)
  {
    assert (t + c)[|t + c| - |s + c|..] == t[|t| - |s|..] + c;
  }

  lemma SuffixTransitive(r: Bytes, s: Bytes, t: Bytes)
    requires IsSuffix(r, s) && IsSuffix(s, t)
    ensures IsSuffix(r, t)
  {
    assert s[|s| - |r|..] == t[|t| - |s|..][|s| - |r|..];
  }
}

=== FILE: vbr_tag.dfy ===
/**
  Recognition of the variable-bitrate summary frames encoders put at the start
  of a stream: a frame carrying "Xing" or "Info" at 36 bytes from its start, or
  "VBRI" at 32 bytes from its start. Such a frame is counted as no audio.
 */
module VbrTag {
  import opened Stream

  const Xing: Bytes := [0x58, 0x69, 0x6E, 0x67]
  const Info: Bytes := [0x49, 0x6E, 0x66, 0x6F]
  const Vbri: Bytes := [0x56, 0x42, 0x52, 0x49]

  /** Offset from the frame start where "Xing" and "Info" are looked for. */
  const XingOffset: nat := 36
  /** Offset from the frame start where "VBRI" is looked for. */
  const VbriOffset: nat := 32

  /** The four bytes at `at` spell `tag`. */
  predicate TagAt(buf: Bytes, at: nat, tag: Bytes)
    requires |tag| == 4 && at + 4 <= |buf|
  {
    buf[at] == tag[0] && buf[at + 1] == tag[1] && buf[at + 2] == tag[2] && buf[at + 3] == tag[3]
  }

  /**
    The classification of the frame starting at `off`, each probe guarded by
    the buffer holding the bytes it reads.
   */
  predicate IsMetadataFrame(buf: Bytes, off: nat)
  {
    || (off + XingOffset + 4 <= |buf| && TagAt(buf, off + XingOffset, Xing))
    || (off + XingOffset + 4 <= |buf| && TagAt(buf, off + XingOffset, Info))
    || (off + VbriOffset + 4 <= |buf| && TagAt(buf, off + VbriOffset, Vbri))
  }

  /**
    For a frame of at least 40 bytes held in the buffer no probe is ever
    skipped for lack of bytes: the frame is metadata exactly when one of the
    three tags sits at its place, and only those twelve bytes decide.
   */
  lemma ClassificationOfCompleteFrame(buf: Bytes, off: nat, size: nat)
    requires size >= 40 && off + size <= |buf|
    ensures IsMetadataFrame(buf, off) <==>
      (buf[off + 36..off + 40] in {Xing, Info} || buf[off + 32..off + 36] == Vbri)
  {
    assert TagAt(buf, off + 36, Xing) <==> buf[off + 36..off + 40] == Xing;
    assert TagAt(buf, off + 36, Info) <==> buf[off + 36..off + 40] == Info;
    assert TagAt(buf, off + 32, Vbri) <==> buf[off + 32..off + 36] == Vbri;
  }

  /** Classification reads only the frame's own bytes 32 to 39: anything after `off + 40` is irrelevant to it. */
  lemma ClassificationIgnoresLaterBytes(buf: Bytes, more: Bytes, off: nat)
    requires off + 40 <= |buf|
    ensures IsMetadataFrame(buf + more, off) == IsMetadataFrame(buf, off)
  {
  }

  /** The three tags spell their names in ASCII and no two coincide. */
  lemma TagsAreDistinctAscii()
    ensures Xing == ['X' as bv8, 'i' as bv8, 'n' as bv8, 'g' as bv8]
    ensures Info == ['I' as bv8, 'n' as bv8, 'f' as bv8, 'o' as bv8]
    ensures Vbri == ['V' as bv8, 'B' as bv8, 'R' as bv8, 'I' as bv8]
    ensures Xing != Info && Info != Vbri && Xing != Vbri
  {
  }
}
